=== FILE: README.md ===
# Floating tooltip interop, modelled in Dafny

This project models the tooltip lifecycle of the browser module
`floatingwindowinterop.js` from the Blazor floating-windows library. The module
keeps one interop object with three registries:

- `cleanups`, keyed by the anchor element id `anchor-{id}`;
- `_timeouts`, keyed by `show-{id}` and `hide-{id}`;
- the per-id handler pair `__handlers_{id}`.

`create(id, options)` decorates the tooltip element, builds a closure with
`showTooltip`/`hideTooltip`, wires `mouseenter`/`mouseleave` on the reference
element (unless the trigger is manual) and registers a cleanup and a mutation
observer. `show`, `hide` and `toggle` dispatch to the handlers, and `dispose`
tears a tooltip down. Show and hide are delayed, cancelable timers; when a
timer expires it adds or removes `visible` and starts or releases an
autoUpdate subscription.

The model is a single immutable record, `Registry.Interop`:

- The three registries are kept under their real string keys.
- Each `create` closure is an `Instance`; the registries refer to closures by index.
- Pending timers are a map from handle to task.
- Running autoUpdate subscriptions, the release log, the once-only `mouseleave`
  listeners and the connected observers are explicit.
- One fresh counter supplies every handle.
- The page is an abstract `Dom.Document` holding anchor and tooltip elements by id.

Each operation is a pure function. Everything the browser decides is an input
of `Events.Step`: timer expiry, pointer events, the `:hover` and `relatedTarget`
tests, autoUpdate callbacks, and elements that leave their parent, leave with an
ancestor or move to another parent. A run is any sequence of such events.

Module layout, following the script:

- `Keys`: the key derivations.
- `Placement`: the placement default, the split, the alignment classes and the static-side table.
- `TooltipOptions`: the options record.
- `Dom`: the page.
- `Registry`: the state and its invariants.
- `Protocol`: the closures built by `create`.
- `Lifecycle`: the public entry points and the observer.
- `Invariants`: every operation preserves well-formedness.
- `Events`: steps and runs.
- `Properties`: multi-step behaviour.

The host serializes its options class. That class has no `placement` or
`theme` member, so from the host both are always absent. The model still lets
them vary, as the script reads them. `classList.add` throws for a class name
that is empty or contains ASCII whitespace (`Dom.IsClassToken`). A theme with
whitespace makes `create` throw after the base class is added. An alignment with
whitespace makes a reposition stop after the alignment classes are removed; the
callback catches the error.

## Model

| member | source | states |
|---|---|---|
| Keys.KeysInjective | src/wwwroot/js/floatingwindowinterop.js:12-13 | distinct ids never share an anchor id, a tooltip id, a show slot or a hide slot (each derivation is injective, both directions) |
| Keys.ShowHideDisjoint | src/wwwroot/js/floatingwindowinterop.js:133-148 | a `show-` slot and a `hide-` slot never coincide, whatever the two ids |
| Keys.StripAnchor | src/wwwroot/js/floatingwindowinterop.js:239-240 | recovers `id` from an element id exactly when it has the form `anchor-{id}` (the inverse of the prefixing `dispose` does) |
| Keys.StripAnchorRoundTrip | src/wwwroot/js/floatingwindowinterop.js:239-240 | stripping `anchor-` after adding it returns the id |
| Registry.Initial | src/wwwroot/js/floatingwindowinterop.js:2-6 | the constructor starts with empty `cleanups` and `timeouts` maps, no handlers, no pending timers and no running autoUpdate, and that state is well formed |
| Placement.ResolvePlacement | src/wwwroot/js/floatingwindowinterop.js:10 | an absent or empty placement becomes "top"; a non-empty one is kept unchanged; the result is never empty |
| Placement.ResolveIdempotent | src/wwwroot/js/floatingwindowinterop.js:10 | resolving a resolved placement again changes nothing |
| Placement.SplitPlacement | src/wwwroot/js/floatingwindowinterop.js:97 | the base and alignment are the first two dash-free pieces of the placement; the alignment is "center" exactly when the placement has no dash |
| Placement.SplitFormat | src/wwwroot/js/floatingwindowinterop.js:97 | for each of the twelve placements the library resolves to, the split returns its side and its alignment, "center" when unaligned |
| Placement.ApplyAlignment | src/wwwroot/js/floatingwindowinterop.js:99-100 | after the update the class for the resolved alignment is present, no other `tooltip-align-*` class is, and every other class is untouched |
| Placement.ExactlyOneAlignClass | src/wwwroot/js/floatingwindowinterop.js:99-100 | for every resolvable placement exactly one of the three alignment classes remains |
| Placement.StaticSide | src/wwwroot/js/floatingwindowinterop.js:118-123 | the table has an entry exactly for the four sides, and maps each to a different side |
| Placement.StaticSideOpposite | src/wwwroot/js/floatingwindowinterop.js:118-123 | the static side is the opposite side: on the same axis, and looking it up again gives back the base |
| TooltipOptions.Defaults | src/Options/FloatingWindowOptions.cs:13-62 | a default host options object is enabled, non-interactive, not manually triggered, with zero delays |
| TooltipOptions.EffectiveDelay | src/wwwroot/js/floatingwindowinterop.js:71 | the delay a timer really waits: a positive delay is kept, and a missing, zero or negative one waits zero |
| Protocol.StoredUnder | src/wwwroot/js/floatingwindowinterop.js:181-182 | the handles `timeouts.get(key)` yields for the given keys: a handle is in the set exactly when some given key present in the map holds it |
| Protocol.Cancel | src/wwwroot/js/floatingwindowinterop.js:69 | `clearTimeout(get(key))`: a timer stays pending exactly when it was pending and no given key holds it, keeping its task and delay; nothing but the pending timers changes. `StoredUnder` is exactly the set of handles the given keys hold |
| Protocol.Schedule | src/wwwroot/js/floatingwindowinterop.js:156-168 | `setTimeout` arms a timer with the task under a fresh handle; every other pending timer is untouched |
| Protocol.ShowTooltip | src/wwwroot/js/floatingwindowinterop.js:67-134 | does nothing when disabled; otherwise it clears only the handle stored under `hide-{id}`, arms a show timer with the effective show delay under a fresh handle, and overwrites `show-{id}` with it |
| Protocol.HideTooltip | src/wwwroot/js/floatingwindowinterop.js:136-149 | the mirror image: it clears only the handle under `show-{id}`, arms a hide timer with the effective hide delay, and overwrites `hide-{id}` |
| Protocol.Release | src/wwwroot/js/floatingwindowinterop.js:142-145 | afterwards the closure's `cleanup` is null and every other closure is unchanged; a live token leaves the running set and is appended to the release log once; nothing else changes |
| Protocol.ReleaseNothing | src/wwwroot/js/floatingwindowinterop.js:142 | with `cleanup` already null nothing changes |
| Protocol.FireShow | src/wwwroot/js/floatingwindowinterop.js:72-75 | the tooltip gets `visible` while the anchors and every other tooltip stay as they were, and a new autoUpdate token becomes the closure's `cleanup` and runs, overwriting any previous token without releasing it |
| Protocol.FireHide | src/wwwroot/js/floatingwindowinterop.js:140-146 | `visible` is gone while the anchors and every other tooltip stay as they were, and the closure's `cleanup` has been released and nulled |
| Protocol.Recheck | src/wwwroot/js/floatingwindowinterop.js:156-168 | a hovered tooltip gains a once-only `mouseleave` listener and nothing else changes; otherwise it hides |
| Protocol.FireTimer | src/wwwroot/js/floatingwindowinterop.js:72-146 | a handle that is not pending does nothing; a pending one stops pending and its task runs |
| Protocol.OnEnter | src/wwwroot/js/floatingwindowinterop.js:151-152 | `mouseenter` shows while the listener is attached, and does nothing otherwise |
| Protocol.OnLeave | src/wwwroot/js/floatingwindowinterop.js:154-173 | an interactive tooltip only arms the uncancelable 100 ms re-check; any other tooltip hides; a detached listener does nothing |
| Protocol.LeaveFromTooltip | src/wwwroot/js/floatingwindowinterop.js:159-164 | the once-only listener is removed; the tooltip hides only if the pointer left for somewhere outside the anchor |
| Protocol.Reposition | src/wwwroot/js/floatingwindowinterop.js:97-127 | only the live subscription's tooltip changes: the alignment classes are reset from the resolved placement and, with arrow data, the arrow is pinned to the static side; when the alignment class is no class token the three classes are only removed and nothing is pinned (the error is caught); its other attributes and every other element are untouched; an unknown token does nothing |
| Protocol.LibraryAlignmentAccepted | src/wwwroot/js/floatingwindowinterop.js:97-100 | for each of the twelve placements the library resolves to, the alignment class is a class token, so the throwing branch is never reached with them |
| Lifecycle.CreateClasses | src/wwwroot/js/floatingwindowinterop.js:36-45 | the classes of a `create` that gets past its class additions: the base class always; `fade` exactly when animating; `interactive` exactly when interactive; a theme class exactly for a non-empty theme; nothing else |
| Dom.WhitespaceFreeAt | src/wwwroot/js/floatingwindowinterop.js:39 | the class-token test `classList.add` applies: a string passes exactly when none of its characters is tab, line feed, form feed, carriage return or space |
| Dom.WhitespaceFreeConcat | src/wwwroot/js/floatingwindowinterop.js:39 | a prefixed class name such as the theme class passes the whitespace test exactly when both its prefix and its suffix do |
| Lifecycle.ThemeAcceptedIff | src/wwwroot/js/floatingwindowinterop.js:38-39 | the theme class is accepted by `classList.add` exactly when the theme is absent or contains no ASCII whitespace |
| Lifecycle.MarkInline | src/wwwroot/js/floatingwindowinterop.js:16-22 | an anchor without a reference child becomes `inline-block`; nothing else on the page changes |
| Lifecycle.Decorate | src/wwwroot/js/floatingwindowinterop.js:36-61 | the tooltip of a `create` that gets past its class additions gains the create classes, its resolved placement, and an arrow when asked for or already present; nothing else on it changes |
| Lifecycle.Register | src/wwwroot/js/floatingwindowinterop.js:151-204 | a new closure over the resolved options is filed as the cleanup under `anchor-{id}` and the handlers under `id`, listens exactly when not manually triggered, and gets an observer on the anchor |
| Lifecycle.Create | src/wwwroot/js/floatingwindowinterop.js:8-61 | the five outcomes, each in both directions: a missing anchor throws before any change; a missing tooltip only marks the anchor; `enabled == false` also hides the tooltip; a theme that is no class token throws after adding the base class; only the remaining case registers. The page is pinned exactly in every case |
| Lifecycle.Unlisten | src/wwwroot/js/floatingwindowinterop.js:179-180 | afterwards the closure no longer listens (a manually triggered one never did); every other closure and the rest of the state are unchanged |
| Lifecycle.RunCleanup | src/wwwroot/js/floatingwindowinterop.js:178-196 | the stored cleanup clears the handles under the closure's two slots, releases its autoUpdate (the token stops running and is logged as released) and detaches its listeners; other closures and the registries are left alone |
| Lifecycle.RunStoredCleanup | src/wwwroot/js/floatingwindowinterop.js:242-246 | runs the cleanup found under the anchor key when there is one, and changes nothing otherwise |
| Lifecycle.Unregister | src/wwwroot/js/floatingwindowinterop.js:245-253 | deletes exactly the anchor's cleanup, the two timeout slots and the handlers, and nothing else |
| Lifecycle.Dispose | src/wwwroot/js/floatingwindowinterop.js:239-254 | after `dispose(id)` the three registries no longer hold `id` and every timer that was stored under its slots is cancelled; otherwise the result is the stored cleanup's run, with the page, observers and once-only listeners untouched |
| Lifecycle.DisposeExact | src/wwwroot/js/floatingwindowinterop.js:239-254 | in a well-formed state `dispose(id)` cancels exactly the timers stored under `show-{id}` and `hide-{id}`, touches only the closure registered for `id`, and releases that closure's autoUpdate |
| Lifecycle.Show | src/wwwroot/js/floatingwindowinterop.js:256-263 | dispatches exactly when handlers are registered; otherwise it only warns and changes nothing |
| Lifecycle.Hide | src/wwwroot/js/floatingwindowinterop.js:265-272 | dispatches exactly when handlers are registered; otherwise it only warns and changes nothing |
| Lifecycle.Toggle | src/wwwroot/js/floatingwindowinterop.js:274-288 | warns without a tooltip element; otherwise it hides exactly when `visible` is set and shows otherwise |
| Lifecycle.DisposeIdempotent | src/wwwroot/js/floatingwindowinterop.js:239-254 | a second `dispose` of the same id changes nothing |
| Lifecycle.DisposeRepeat | src/wwwroot/js/floatingwindowinterop.js:215-218 | any positive number of `dispose` calls in a row acts as one |
| Lifecycle.AnchorRemoved | src/wwwroot/js/floatingwindowinterop.js:207-223 | as written: the element leaves the page and its observers disconnect; when an observer watched it, the result is `dispose` called with the already-prefixed element id on the detached state |
| Lifecycle.AnchorRemovedIntended | src/wwwroot/js/floatingwindowinterop.js:207-223 | the corrected observer: the element leaves the page and its observers disconnect |
| Lifecycle.AnchorRemovedIntendedTearsDown | src/wwwroot/js/floatingwindowinterop.js:216-217 | the corrected observer unregisters the cleanup, both slots and the handlers of the tooltip whose anchor was removed |
| Lifecycle.RemoveElement | src/wwwroot/js/floatingwindowinterop.js:207-223 | an element removed from the parent an observer watches: it is gone from the page, every other tooltip is unchanged, a removed tooltip touches nothing else, and a removed anchor goes through the corrected observer |
| Lifecycle.RemoveWithAncestor | src/wwwroot/js/floatingwindowinterop.js:211-222 | an element that leaves the page with an ancestor: the observers watch only the child list of the anchor's own parent, so the element is gone and nothing else changes |
| Lifecycle.AnchorReparented | src/wwwroot/js/floatingwindowinterop.js:211-222 | an anchor moved to another parent: its observers fire the corrected callback and disconnect, so the tooltip is disposed, while the page is unchanged |
| Invariants.OrphanKept | src/wwwroot/js/floatingwindowinterop.js:133-148 | a pending timer that no slot holds survives every well-formed step except its own expiry, keeping its task |
| Invariants.ReleaseOnce | src/wwwroot/js/floatingwindowinterop.js:142-145 | a token about to be released is running and has never been released before |
| Invariants.CreateOk | src/wwwroot/js/floatingwindowinterop.js:8-204 | `create` keeps the state well formed and cancels nothing: the pending timers and the `timeouts` slots are unchanged |
| Invariants.FireTimerOk | src/wwwroot/js/floatingwindowinterop.js:72-168 | any timer expiry keeps the state well formed, and the expired handle is never pending afterwards |
| Invariants.DisposeOk | src/wwwroot/js/floatingwindowinterop.js:239-254 | `dispose` keeps the state well formed and cancels only stored handles |
| Invariants.AnchorRemovedIntendedOk | src/wwwroot/js/floatingwindowinterop.js:207-223 | the corrected observer keeps the state well formed |
| Invariants.RemoveElementOk | src/wwwroot/js/floatingwindowinterop.js:207-223 | removing any element keeps the state well formed and cancels only timers some slot held |
| Invariants.RemoveWithAncestorOk | src/wwwroot/js/floatingwindowinterop.js:211-222 | removal through an ancestor keeps the state well formed and cancels nothing |
| Invariants.AnchorReparentedOk | src/wwwroot/js/floatingwindowinterop.js:211-222 | moving an anchor keeps the state well formed and cancels only timers some slot held |
| Events.StepOk | src/wwwroot/js/floatingwindowinterop.js:8-288 | every event keeps the state well formed; it removes a pending timer only if a slot held it or it is the one expiring |
| Events.RunOk | src/wwwroot/js/floatingwindowinterop.js:8-288 | any run of events keeps the state well formed and only grows it (by induction over the run) |
| Events.NoResurrection | src/wwwroot/js/floatingwindowinterop.js:69 | a timer that was cleared or has run is never pending again, whatever happens next |
| Events.ReleaseLogDistinct | src/wwwroot/js/floatingwindowinterop.js:142-145 | over any run, no autoUpdate token is released twice |
| Events.OrphanedPersists | src/wwwroot/js/floatingwindowinterop.js:133-148 | an unheld pending timer stays pending and unheld through every event but its own expiry |
| Events.OrphanedPersistsRun | src/wwwroot/js/floatingwindowinterop.js:133-148 | the same along any run without its expiry (by induction) |
| Properties.DefaultCreate | src/Options/FloatingWindowOptions.cs:13-62 | with the host defaults the tooltip gets exactly the base and fade classes, placement "top" and an arrow, and the closure listens with zero delays |
| Properties.DisabledCreateRegistersNothing | src/wwwroot/js/floatingwindowinterop.js:31-34 | a disabled `create` registers no cleanup, handlers or timers, and later `show`/`hide` only warn |
| Properties.ShowCancelsHide | src/wwwroot/js/floatingwindowinterop.js:67-72 | `show(id)` cancels the pending stored hide and stores its own fresh show timer under `show-{id}` |
| Properties.HideCancelsShow | src/wwwroot/js/floatingwindowinterop.js:136-148 | `hide(id)` cancels the pending stored show and stores its own fresh hide timer under `hide-{id}` |
| Properties.HideBeforeShowDelay | src/wwwroot/js/floatingwindowinterop.js:133-137 | after `show` then `hide`, that show timer is never pending again in any continuation, and its expiry does nothing |
| Properties.DoubleShowOrphansFirst | src/wwwroot/js/floatingwindowinterop.js:133 | a second `show` leaves the first show timer pending with no slot holding it |
| Properties.OrphanedShowOutlivesDispose | src/wwwroot/js/floatingwindowinterop.js:239-254 | after two shows, `hide` and `dispose`, the tooltip is unregistered yet the first show timer is still pending |
| Properties.OrphanedShowFires | src/wwwroot/js/floatingwindowinterop.js:72-75 | a show timer that no slot holds (the `Orphaned` precondition), when it expires, makes its tooltip visible and starts an autoUpdate for its closure, leaving `cleanups` and `handlers` as they were; combined with `Properties.OrphanedShowOutlivesDispose` this happens after `dispose`, when nothing is registered for the id |
| Properties.SecondShowLeaksSubscription | src/wwwroot/js/floatingwindowinterop.js:75 | a second show expiry leaves the previous autoUpdate running with no closure able to release it |
| Properties.InteractiveBridge | src/wwwroot/js/floatingwindowinterop.js:154-168 | leave to a hovered interactive tooltip, then back into the anchor: no hide is armed, and timers, slots, page and listeners end as they began |
| Properties.BridgeExitHides | src/wwwroot/js/floatingwindowinterop.js:159-162 | leaving the hovered tooltip for outside the anchor arms a hide under `hide-{id}` |
| Properties.DisposeUnknown | src/wwwroot/js/floatingwindowinterop.js:239-254 | `dispose` of an id that was never registered changes nothing |
| Properties.DisposeFrame | src/wwwroot/js/floatingwindowinterop.js:239-254 | `dispose(id)` leaves every other id's cleanup, slots and handlers as they were |
| Properties.DisposeTearsDown | src/wwwroot/js/floatingwindowinterop.js:239-254 | after `dispose` the calls only warn, both stored timers are cancelled, the closure's listeners are detached, and its autoUpdate token has stopped running and is appended to the release log |
| Properties.RecreateKeepsFirstListeners | src/wwwroot/js/floatingwindowinterop.js:178-202 | a second `create` for a live id overwrites the registries without running the first cleanup, so the first closure still listens after `dispose` |
| Properties.SpacedThemeRegistersNothing | src/wwwroot/js/floatingwindowinterop.js:36-39 | `create` with the theme "dark mode" throws: the tooltip has the base class, nothing is registered and no timer changes |
| Properties.RemovedTooltipToggleWarns | src/wwwroot/js/floatingwindowinterop.js:275-281 | once a tooltip element has been removed, `toggle` for its id only warns, and removing a non-anchor element leaves the registries alone |
| Properties.AncestorRemovalKeepsRegistration | src/wwwroot/js/floatingwindowinterop.js:222 | an anchor gone with an ancestor leaves its cleanup, slots, handlers and observers in place, even with the corrected callback |
| Properties.MovedAnchorUnregisters | src/wwwroot/js/floatingwindowinterop.js:211-222 | moving a watched anchor to another parent unregisters its tooltip although the anchor is still on the page |
| Properties.AnchorRemovedKeepsRegistration | src/wwwroot/js/floatingwindowinterop.js:217 | as written, removing the anchor of a registered tooltip leaves its cleanup and handlers registered |
| Properties.AnchorRemovedIntendedUnregisters | src/wwwroot/js/floatingwindowinterop.js:216-217 | the corrected observer keeps the state well formed, and afterwards `show`/`hide` only warn |
| Properties.AnchorRemovedWitness | src/wwwroot/js/floatingwindowinterop.js:204-217 | on a one-tooltip page, after `create("x")` with defaults and removal of `anchor-x`, "x" is still registered as written and not with the correction |

## Left out

- Coordinates and the positioning library: `computePosition`, `autoUpdate`, `offset`, `flip`, `shift` and `arrow`, and the inline styles they drive (lines 75-95, 105-116, 125). They are foreign calls with floating-point results. An autoUpdate is an opaque token, and each of its callbacks is an event carrying the resolved placement.
- `maxWidth` (lines 47-53): it only sets a style on a child element.
- `setCallbacks` (lines 225-237): fire-and-forget notification of the host over interop.
- Timer ordering: the model does not compare delays. Any pending timer may expire next, which includes every order the delays allow.
- DOM identity: elements are looked up by id, and a closure's captured elements stay the ones it was built with. Re-rendering the same id with new elements is not modelled.
- Console warnings and errors: only whether a call warned is kept.
- Event dispatch: one `mouseenter` on a reference element runs every closure listening there, and one `mouseleave` on a tooltip runs every once-only listener on it. The model delivers them one listener at a time (`Events.ReferenceEnter`, `Events.TooltipLeave`). Every browser order is still among the modelled runs, and the all-runs lemmas hold for the larger set.
- The C# side: interop forwarding, resource loading, DI registration, style option strings and DTOs. It holds no tooltip logic. It forwards `destroy`, `close`, `getPosition`, `setPosition`, `getSize`, `setSize`, `bringToFront`, `getViewportSize` and `centerInViewport` (src/FloatingWindowInterop.cs:80-138), none of which the script defines, so nothing of them is modelled. No host code calls `dispose`: it stays a public method of the interop object, and `Events.DisposeCall` models a call to it from anywhere. In the code shown, the observer is the only caller of `dispose`. Together with the double prefix at line 217, this means the host never tears a tooltip down.
- The `enabled` guard inside `showTooltip` (line 68) is modelled, although `create` registers only enabled closures, so it never triggers.
- Re-creation: `create` for an id that is already live overwrites the registries without disposing the old closure. The model follows the code (see `Properties.RecreateKeepsFirstListeners`), although a destroy-then-recreate design would tear down first.

## Findings

| source | as written | input that shows it | evidently intended | confidence | as-written member | corrected member |
|---|---|---|---|---|---|---|
| src/wwwroot/js/floatingwindowinterop.js:217 | the observer calls `this.dispose(elementId)` with the element id `anchor-{id}`; `dispose` prefixes again (line 240) and looks up `anchor-anchor-{id}`, `show-anchor-{id}`, `hide-anchor-{id}` and handlers `anchor-{id}`, none of which exist | `create("x")` with default options on a page with `anchor-x` and `tooltip-x`, then remove `anchor-x`: the cleanup and handlers of "x" stay registered and its listeners stay attached | call `dispose(id)` so that removal of the anchor tears the tooltip down | high (not executed) | Lifecycle.AnchorRemoved, Properties.AnchorRemovedKeepsRegistration, Properties.AnchorRemovedWitness | Lifecycle.AnchorRemovedIntended, Lifecycle.AnchorRemovedIntendedTearsDown, Properties.AnchorRemovedIntendedUnregisters |

`Events.Step` uses the corrected observer, through `Lifecycle.RemoveElement` and `Lifecycle.AnchorReparented`. The correction only covers removal from the observed parent. An anchor that leaves with an ancestor notifies no observer (`Properties.AncestorRemovalKeepsRegistration`), so nothing is torn down even with the fix. The as-written `Lifecycle.AnchorRemoved`
stays next to it, and `Invariants.AnchorRemovedOk` proves it well formed as well.

=== FILE: dom.dfy ===
/**
  The part of the page the script reads and writes: anchor and tooltip elements
  looked up by element id, with only the attributes the script touches.
 */
module Dom {

  import opened Wrappers

  /** An anchor wrapper; `hasReference` says whether it holds a child to position against. */
  datatype Anchor = Anchor(hasReference: bool, inlineBlock: bool)

  /** A tooltip element: its class list, `display: none`, `data-placement`, arrow child and arrow side. */
  datatype Tooltip = Tooltip(
    classes: set<string>,
    displayNone: bool,
    placement: Option<string>,
    hasArrow: bool,
    arrowSide: Option<string>)

  datatype Document = Document(anchors: map<string, Anchor>, tooltips: map<string, Tooltip>)

  const Visible: string := "visible"

  /** The characters the DOM counts as ASCII whitespace: tab, line feed, form feed, carriage return, space. */
  const AsciiWhitespace: set<char> := {'\t', '\n', '\U{000C}', '\r', ' '}

  /**
    A string `classList.add` accepts: it throws for the empty string and for any
    string containing ASCII whitespace.
   */
  predicate IsClassToken(c: string) {
    c != [] && WhitespaceFree(c)
  }

  /** No character of `c` is ASCII whitespace. */
  predicate WhitespaceFree(c: string)
    decreases |c|
  {
    c == [] || (c[0] !in AsciiWhitespace && WhitespaceFree(c[1..]))
  }

  /** `WhitespaceFree` means what it says, character by character. */
  lemma {:induction false} WhitespaceFreeAt(c: string)
    ensures WhitespaceFree(c) <==> forall i :: 0 <= i < |c| ==> c[i] !in AsciiWhitespace
    decreases |c|
  {
    if c != [] {
      WhitespaceFreeAt(c[1..]);
      assert forall i :: 1 <= i < |c| ==> c[i] == c[1..][i - 1];
    }
  }

  /** A concatenation is whitespace-free exactly when both parts are. */
  lemma {:induction false} WhitespaceFreeConcat(a: string, b: string)
    ensures WhitespaceFree(a + b) <==> WhitespaceFree(a) && WhitespaceFree(b)
    decreases |a|
  {
    if a != [] {
      assert (a + b)[0] == a[0] && (a + b)[1..] == a[1..] + b;
      WhitespaceFreeConcat(a[1..], b);
    } else {
      assert a + b == b;
    }
  }

  /** `tooltip.classList.contains(c)` for the element with id `el`; false when there is none. */
  predicate HasClass(d: Document, el: string, c: string) {
    el in d.tooltips && c in d.tooltips[el].classes
  }

  /** Replaces the tooltip with id `el`, when the document has one. */
  function PutTooltip(d: Document, el: string, t: Tooltip): (r: Document)
    ensures r.anchors == d.anchors
    ensures r.tooltips.Keys == d.tooltips.Keys
    ensures el in d.tooltips ==> r.tooltips[el] == t
    ensures forall e :: e in d.tooltips && e != el ==> r.tooltips[e] == d.tooltips[e]
  {
    if el in d.tooltips then d.(tooltips := d.tooltips[el := t]) else d
  }

  /** `classList.add(c)` on the tooltip with id `el`. */
  function AddClass(d: Document, el: string, c: string): (r: Document)
    ensures el in d.tooltips ==> HasClass(r, el, c)
    ensures el in d.tooltips ==> r.tooltips[el] == d.tooltips[el].(classes := d.tooltips[el].classes + {c})
    ensures el !in d.tooltips ==> r == d
    ensures r.anchors == d.anchors && r.tooltips.Keys == d.tooltips.Keys
    ensures forall e :: e in d.tooltips && e != el ==> r.tooltips[e] == d.tooltips[e]
  {
    if el in d.tooltips then PutTooltip(d, el, d.tooltips[el].(classes := d.tooltips[el].classes + {c})) else d
  }

  /** `classList.remove(c)` on the tooltip with id `el`. */
  function RemoveClass(d: Document, el: string, c: string): (r: Document)
    ensures r.anchors == d.anchors && r.tooltips.Keys == d.tooltips.Keys
    ensures !HasClass(r, el, c)
    ensures el in d.tooltips ==> r.tooltips[el] == d.tooltips[el].(classes := d.tooltips[el].classes - {c})
    ensures el !in d.tooltips ==> r == d
    ensures forall e :: e in d.tooltips && e != el ==> r.tooltips[e] == d.tooltips[e]
  {
    if el in d.tooltips then PutTooltip(d, el, d.tooltips[el].(classes := d.tooltips[el].classes - {c})) else d
  }
}

=== FILE: events.dfy ===
/**
  Everything that can happen to the interop object, one event at a time: calls
  of its public methods, timer expiry, pointer events, autoUpdate callbacks, and
  elements leaving the page or moving within it. The browser decides the order; any order is a run.
 */
module Events {

  import opened Wrappers
  import opened TooltipOptions
  import opened Registry
  import opened Protocol
  import opened Lifecycle
  import opened Invariants

  datatype Event =
    | CreateCall(id: string, opts: Options)
    | ShowCall(id: string)
    | HideCall(id: string)
    | ToggleCall(id: string)
    | DisposeCall(id: string)
    | TimerFires(handle: nat, tooltipHovered: bool)      // `tooltipHovered`: `tooltip.matches(':hover')` then
    | ReferenceEnter(inst: nat)                          // mouseenter on the reference of closure `inst`
    | ReferenceLeave(inst: nat)                          // mouseleave on the reference of closure `inst`
    | TooltipLeave(watcher: nat, relatedInAnchor: bool)  // the once-only listener; `anchor.contains(relatedTarget)`
    | AutoUpdate(token: nat, resolved: string, arrowData: bool)
    | ElementRemoved(el: string)                         // removed from the parent an observer watches
    | RemovedWithAncestor(el: string)                    // gone with an ancestor: no observer is notified
    | AnchorMoved(el: string)                            // re-parented: observers fire, the anchor stays

  /** The timer an event lets expire, if any. */
  function Expires(e: Event): Option<nat> {
    if e.TimerFires? then Some(e.handle) else None
  }

  /** The state after one event. */
  function Step(s: Interop, e: Event): Interop {
    match e
    case CreateCall(id, opts) => Create(s, id, opts).0
    case ShowCall(id) => Show(s, id).0
    case HideCall(id) => Hide(s, id).0
    case ToggleCall(id) => Toggle(s, id).0
    case DisposeCall(id) => Dispose(s, id)
    case TimerFires(h, hovered) => FireTimer(s, h, hovered)
    case ReferenceEnter(k) => if k < |s.insts| then OnEnter(s, k) else s
    case ReferenceLeave(k) => if k < |s.insts| then OnLeave(s, k) else s
    case TooltipLeave(w, inAnchor) => LeaveFromTooltip(s, w, inAnchor)
    case AutoUpdate(t, resolved, arrowData) => Reposition(s, t, resolved, arrowData)
    case ElementRemoved(el) => RemoveElement(s, el)
    case RemovedWithAncestor(el) => RemoveWithAncestor(s, el)
    case AnchorMoved(el) => AnchorReparented(s, el)
  }

  /** The state after a whole sequence of events. */
  function Run(s: Interop, es: seq<Event>): Interop
    decreases |es|
  {
    if es == [] then s else Run(Step(s, es[0]), es[1..])
  }

  /** A call to one of the interop object's public methods. */
  predicate IsCall(e: Event) {
    e.CreateCall? || e.ShowCall? || e.HideCall? || e.ToggleCall? || e.DisposeCall?
  }

  lemma CallOk(s: Interop, e: Event)
    requires Valid(s) && IsCall(e)
    ensures Follows(s, Step(s, e), None)
  {
    match e
    case CreateCall(id, opts) => CreateOk(s, id, opts);
    case ShowCall(id) => ShowOk(s, id);
    case HideCall(id) => HideOk(s, id);
    case ToggleCall(id) => ToggleOk(s, id);
    case DisposeCall(id) => DisposeOk(s, id);
  }

  lemma BrowserEventOk(s: Interop, e: Event)
    requires Valid(s) && !IsCall(e)
    ensures Follows(s, Step(s, e), Expires(e))
  {
    match e
    case TimerFires(h, hovered) => FireTimerOk(s, h, hovered);
    case ReferenceEnter(k) => if k < |s.insts| { OnEnterOk(s, k); } else { SameShape(s, s); }
    case ReferenceLeave(k) => if k < |s.insts| { OnLeaveOk(s, k); } else { SameShape(s, s); }
    case TooltipLeave(w, inAnchor) => LeaveFromTooltipOk(s, w, inAnchor);
    case AutoUpdate(t, resolved, arrowData) => RepositionOk(s, t, resolved, arrowData);
    case ElementRemoved(el) => RemoveElementOk(s, el);
    case RemovedWithAncestor(el) => RemoveWithAncestorOk(s, el);
    case AnchorMoved(el) => AnchorReparentedOk(s, el);
  }

  /** Every event keeps the state well formed and cancels only timers a `timeouts` slot held. */
  lemma StepOk(s: Interop, e: Event)
    requires Valid(s)
    ensures Follows(s, Step(s, e), Expires(e))
  {
    if IsCall(e) { CallOk(s, e); } else { BrowserEventOk(s, e); }
  }

  /** Any run from a well-formed state stays well formed and only grows. */
  lemma {:induction false} RunOk(s: Interop, es: seq<Event>)
    requires Valid(s)
    ensures Valid(Run(s, es)) && Grows(s, Run(s, es))
    decreases |es|
  {
    if es != [] {
      var s1 := Step(s, es[0]);
      StepOk(s, es[0]);
      RunOk(s1, es[1..]);
      GrowsTrans(s, s1, Run(s1, es[1..]));
    }
  }

  /** A timer that was cleared or has run is never pending again, whatever happens next. */
  lemma NoResurrection(s: Interop, es: seq<Event>, h: nat)
    requires Valid(s) && h < s.next && h !in s.timers
    ensures h !in Run(s, es).timers
  {
    RunOk(s, es);
  }

  /** Over any run, no autoUpdate token is released twice. */
  lemma ReleaseLogDistinct(s: Interop, es: seq<Event>)
    requires Valid(s)
    ensures var log := Run(s, es).released;
      forall i, j :: 0 <= i < j < |log| ==> log[i] != log[j]
  {
    RunOk(s, es);
  }

  /**
    A pending timer that no `timeouts` slot holds stays pending and unheld
    through every event except its own expiry: no `hide`, `dispose` or cleanup
    can clear it.
   */
  lemma OrphanedPersists(s: Interop, e: Event, h: nat)
    requires Valid(s) && Orphaned(s, h) && Expires(e) != Some(h)
    ensures Orphaned(Step(s, e), h)
  {
    StepOk(s, e);
    OrphanKept(s, Step(s, e), Expires(e), h);
  }

  /** The same along any run in which the orphan's own expiry does not occur. */
  lemma {:induction false} OrphanedPersistsRun(s: Interop, es: seq<Event>, h: nat)
    requires Valid(s) && Orphaned(s, h)
    requires forall i :: 0 <= i < |es| ==> Expires(es[i]) != Some(h)
    ensures Orphaned(Run(s, es), h)
    decreases |es|
  {
    if es != [] {
      StepOk(s, es[0]);
      OrphanedPersists(s, es[0], h);
      OrphanedPersistsRun(Step(s, es[0]), es[1..], h);
    }
  }
}

=== FILE: invariants.dfy ===
/**
  Every operation keeps the interop state well formed (`Registry.Valid`) and
  relates it to its successor by `Registry.Grows` and `Registry.CancelsOnlyStored`.
 */
module Invariants {

  import opened Wrappers
  import opened TooltipOptions
  import opened Dom
  import opened Keys
  import opened Registry
  import opened Protocol
  import opened Lifecycle

  lemma GrowsTrans(a: Interop, b: Interop, c: Interop)
    requires Grows(a, b) && Grows(b, c)
    ensures Grows(a, c)
  {
    forall key | key in c.timeouts
      ensures c.timeouts[key] in a.timeouts.Values || a.next <= c.timeouts[key]
    {
      var v := c.timeouts[key];
      if v in b.timeouts.Values {
        var k2 :| k2 in b.timeouts && b.timeouts[k2] == v;
      }
    }
  }

  lemma FollowsTrans(a: Interop, b: Interop, c: Interop, e: Option<nat>)
    requires Valid(a) && Follows(a, b, e) && Follows(b, c, None)
    ensures Follows(a, c, e)
  {
    GrowsTrans(a, b, c);
    forall h | h in a.timers && h !in c.timers
      ensures h in a.timeouts.Values || e == Some(h)
    {
      if h in b.timers {
        assert h in b.timeouts.Values;
        var key :| key in b.timeouts && b.timeouts[key] == h;
        assert h < a.next;
      }
    }
  }

  /** Any well-formed successor that did not expire an orphaned timer still has it pending, unheld, with its task. */
  lemma OrphanKept(s: Interop, r: Interop, expired: Option<nat>, h: nat)
    requires Valid(s) && Follows(s, r, expired) && Orphaned(s, h) && expired != Some(h)
    ensures Orphaned(r, h) && r.timers[h] == s.timers[h]
  {
    forall key | key in r.timeouts ensures r.timeouts[key] != h {
      assert r.timeouts[key] in s.timeouts.Values || s.next <= r.timeouts[key];
    }
  }

  /** A state that differs only in fields `Valid` and `Grows` ignore, with no new handles. */
  lemma SameShape(s: Interop, r: Interop)
    requires Valid(s)
    requires r == s.(doc := r.doc)
    ensures Follows(s, r, None)
  {
  }

  lemma CancelOk(s: Interop, keys: set<string>)
    requires Valid(s)
    ensures Follows(s, Cancel(s, keys), None)
  {
  }

  lemma ScheduleOk(s: Interop, task: Task, delay: nat)
    requires Valid(s) && task.inst < |s.insts|
    ensures Follows(s, Schedule(s, task, delay), None)
  {
  }

  lemma ArmOk(s: Interop, cancelKey: string, storeKey: string, task: Task, delay: nat)
    requires Valid(s) && task.inst < |s.insts|
    ensures Follows(s, Arm(s, cancelKey, storeKey, task, delay), None)
  {
    var r := Arm(s, cancelKey, storeKey, task, delay);
    forall key | key in r.timeouts
      ensures r.timeouts[key] in s.timeouts.Values || s.next <= r.timeouts[key]
    {
      if key != storeKey {
        assert s.timeouts[key] in s.timeouts.Values;
      }
    }
    forall h | h in s.timers && h !in r.timers
      ensures h in s.timeouts.Values
    {
      assert Stored(s, cancelKey) == Some(h);
    }
  }

  lemma ShowTooltipOk(s: Interop, k: nat)
    requires Valid(s) && k < |s.insts|
    ensures Follows(s, ShowTooltip(s, k), None)
  {
    if s.insts[k].opts.enabled {
      var inst := s.insts[k];
      ArmOk(s, HideKey(inst.id), ShowKey(inst.id), ShowTask(k), EffectiveDelay(inst.opts.showDelay));
    }
  }

  lemma HideTooltipOk(s: Interop, k: nat)
    requires Valid(s) && k < |s.insts|
    ensures Follows(s, HideTooltip(s, k), None)
  {
    var inst := s.insts[k];
    ArmOk(s, ShowKey(inst.id), HideKey(inst.id), HideTask(k), EffectiveDelay(inst.opts.hideDelay));
  }

  lemma ReleaseOk(s: Interop, k: nat)
    requires Valid(s) && k < |s.insts|
    ensures Follows(s, Release(s, k), None)
  {
    var r := Release(s, k);
    if s.insts[k].cleanup.Some? {
      forall k' | 0 <= k' < |r.insts| && r.insts[k'].cleanup.Some?
        ensures r.insts[k'].cleanup.value in r.subs && r.subs[r.insts[k'].cleanup.value] == k'
      {
        assert s.insts[k'].cleanup == r.insts[k'].cleanup;
      }
    }
  }

  /** A released autoUpdate token was running and had never been released before. */
  lemma ReleaseOnce(s: Interop, k: nat)
    requires Valid(s) && k < |s.insts| && s.insts[k].cleanup.Some?
    ensures s.insts[k].cleanup.value in s.subs
    ensures s.insts[k].cleanup.value !in s.released
  {
  }

  lemma FireShowOk(s: Interop, k: nat)
    requires Valid(s) && k < |s.insts|
    ensures Follows(s, FireShow(s, k), None)
  {
  }

  lemma FireHideOk(s: Interop, k: nat)
    requires Valid(s) && k < |s.insts|
    ensures Follows(s, FireHide(s, k), None)
  {
    var s1 := s.(doc := RemoveClass(s.doc, TooltipId(s.insts[k].id), Visible));
    SameShape(s, s1);
    ReleaseOk(s1, k);
    FollowsTrans(s, s1, Release(s1, k), None);
  }

  lemma RecheckOk(s: Interop, k: nat, hovered: bool)
    requires Valid(s) && k < |s.insts|
    ensures Follows(s, Recheck(s, k, hovered), None)
  {
    if !hovered { HideTooltipOk(s, k); }
  }

  lemma RunTaskOk(s: Interop, task: Task, hovered: bool)
    requires Valid(s)
    ensures Follows(s, RunTask(s, task, hovered), None)
  {
    if task.inst < |s.insts| {
      match task
      case ShowTask(k) => FireShowOk(s, k);
      case HideTask(k) => FireHideOk(s, k);
      case RecheckTask(k) => RecheckOk(s, k, hovered);
    }
  }

  lemma ExpireOk(s: Interop, h: nat)
    requires Valid(s) && h in s.timers
    ensures Follows(s, s.(timers := s.timers - {h}), Some(h))
  {
  }

  lemma FireTimerOk(s: Interop, h: nat, hovered: bool)
    requires Valid(s)
    ensures Follows(s, FireTimer(s, h, hovered), Some(h))
    ensures h !in FireTimer(s, h, hovered).timers
  {
    if h in s.timers {
      var s1 := s.(timers := s.timers - {h});
      ExpireOk(s, h);
      RunTaskOk(s1, s.timers[h].task, hovered);
      FollowsTrans(s, s1, FireTimer(s, h, hovered), Some(h));
    }
  }

  lemma OnEnterOk(s: Interop, k: nat)
    requires Valid(s) && k < |s.insts|
    ensures Follows(s, OnEnter(s, k), None)
  {
    ShowTooltipOk(s, k);
  }

  lemma OnLeaveOk(s: Interop, k: nat)
    requires Valid(s) && k < |s.insts|
    ensures Follows(s, OnLeave(s, k), None)
  {
    ScheduleOk(s, RecheckTask(k), RecheckDelay);
    HideTooltipOk(s, k);
  }

  lemma LeaveFromTooltipOk(s: Interop, w: nat, relatedInAnchor: bool)
    requires Valid(s)
    ensures Follows(s, LeaveFromTooltip(s, w, relatedInAnchor), None)
  {
    if w in s.watchers {
      var s1 := s.(watchers := s.watchers - {w});
      assert Follows(s, s1, None);
      if !relatedInAnchor {
        HideTooltipOk(s1, s.watchers[w]);
        FollowsTrans(s, s1, HideTooltip(s1, s.watchers[w]), None);
      }
    }
  }

  lemma RepositionOk(s: Interop, t: nat, resolved: string, arrowData: bool)
    requires Valid(s)
    ensures Follows(s, Reposition(s, t, resolved, arrowData), None)
  {
    SameShape(s, Reposition(s, t, resolved, arrowData));
  }

  lemma RegisterOk(s: Interop, id: string, opts: Options)
    requires Valid(s) && TooltipId(id) in s.doc.tooltips
    ensures Follows(s, Register(s, id, opts), None)
  {
    RegisterRegistriesOk(s, id, opts);
    RegisterSubscriptionsOk(s, id, opts);
  }

  lemma RegisterRegistriesOk(s: Interop, id: string, opts: Options)
    requires Valid(s) && TooltipId(id) in s.doc.tooltips
    ensures RegistriesOk(Register(s, id, opts))
  {
    RegisterKeepsClosures(s, id, opts);
  }

  lemma RegisterSubscriptionsOk(s: Interop, id: string, opts: Options)
    requires Valid(s) && TooltipId(id) in s.doc.tooltips
    ensures SubscriptionsOk(Register(s, id, opts))
  {
    RegisterKeepsClosures(s, id, opts);
  }

  lemma RegisterKeepsClosures(s: Interop, id: string, opts: Options)
    requires TooltipId(id) in s.doc.tooltips
    ensures forall j :: 0 <= j < |s.insts| ==> Register(s, id, opts).insts[j] == s.insts[j]
  {
    var r := Register(s, id, opts);
    forall j | 0 <= j < |s.insts| ensures r.insts[j] == s.insts[j] {
      assert r.insts[..|s.insts|][j] == r.insts[j];
    }
  }

  lemma CreateOk(s: Interop, id: string, opts: Options)
    requires Valid(s)
    ensures Follows(s, Create(s, id, opts).0, None)
    ensures Create(s, id, opts).0.timers == s.timers && Create(s, id, opts).0.timeouts == s.timeouts
  {
    var r := Create(s, id, opts);
    if r.1 == Registered {
      var s1 := s.(doc := MarkInline(s.doc, AnchorId(id)));
      SameShape(s, s1);
      RegisterOk(s1, id, opts);
      FollowsTrans(s, s1, r.0, None);
    } else {
      SameShape(s, r.0);
    }
  }

  lemma UnlistenOk(s: Interop, k: nat)
    requires Valid(s) && k < |s.insts|
    ensures Follows(s, Unlisten(s, k), None)
  {
  }

  lemma RunCleanupOk(s: Interop, k: nat)
    requires Valid(s) && k < |s.insts|
    ensures Follows(s, RunCleanup(s, k), None)
  {
    var s1 := Cancel(s, TimerKeys(s.insts[k].id));
    CancelOk(s, TimerKeys(s.insts[k].id));
    var s2 := Unlisten(s1, k);
    UnlistenOk(s1, k);
    FollowsTrans(s, s1, s2, None);
    ReleaseOk(s2, k);
    FollowsTrans(s, s2, Release(s2, k), None);
  }

  lemma RunStoredCleanupOk(s: Interop, anchor: string)
    requires Valid(s)
    ensures Follows(s, RunStoredCleanup(s, anchor), None)
  {
    if anchor in s.cleanups && s.cleanups[anchor] < |s.insts| { RunCleanupOk(s, s.cleanups[anchor]); }
  }

  lemma UnregisterOk(s: Interop, id: string)
    requires Valid(s)
    ensures Follows(s, Unregister(s, id), None)
  {
    var r := Unregister(s, id);
    forall key | key in r.timeouts ensures r.timeouts[key] in s.timeouts.Values {
      assert s.timeouts[key] in s.timeouts.Values;
    }
  }

  lemma DisposeOk(s: Interop, id: string)
    requires Valid(s)
    ensures Follows(s, Dispose(s, id), None)
  {
    var s1 := RunStoredCleanup(s, AnchorId(id));
    RunStoredCleanupOk(s, AnchorId(id));
    var s2 := Cancel(s1, TimerKeys(id));
    CancelOk(s1, TimerKeys(id));
    FollowsTrans(s, s1, s2, None);
    UnregisterOk(s2, id);
    FollowsTrans(s, s2, Unregister(s2, id), None);
  }

  lemma ShowOk(s: Interop, id: string)
    requires Valid(s)
    ensures Follows(s, Show(s, id).0, None)
  {
    if HasHandlers(s, id) { ShowTooltipOk(s, s.handlers[id]); }
  }

  lemma HideOk(s: Interop, id: string)
    requires Valid(s)
    ensures Follows(s, Hide(s, id).0, None)
  {
    if HasHandlers(s, id) { HideTooltipOk(s, s.handlers[id]); }
  }

  lemma ToggleOk(s: Interop, id: string)
    requires Valid(s)
    ensures Follows(s, Toggle(s, id).0, None)
  {
    ShowOk(s, id);
    HideOk(s, id);
  }

  lemma AnchorRemovedOk(s: Interop, el: string)
    requires Valid(s)
    ensures Follows(s, AnchorRemoved(s, el), None)
  {
    if el in s.doc.anchors {
      var s1 := Detach(s, el);
      assert Follows(s, s1, None);
      DisposeOk(s1, el);
      FollowsTrans(s, s1, Dispose(s1, el), None);
    }
  }

  lemma AnchorRemovedIntendedOk(s: Interop, el: string)
    requires Valid(s)
    ensures Follows(s, AnchorRemovedIntended(s, el), None)
  {
    if el in s.doc.anchors {
      var s1 := Detach(s, el);
      assert Follows(s, s1, None);
      if StripAnchor(el).Some? {
        var id := StripAnchor(el).value;
        DisposeOk(s1, id);
        FollowsTrans(s, s1, Dispose(s1, id), None);
      }
    }
  }

  lemma RemoveElementOk(s: Interop, el: string)
    requires Valid(s)
    ensures Follows(s, RemoveElement(s, el), None)
  {
    var s1 := s.(doc := s.doc.(tooltips := s.doc.tooltips - {el}));
    SameShape(s, s1);
    AnchorRemovedIntendedOk(s1, el);
    FollowsTrans(s, s1, RemoveElement(s, el), None);
  }

  lemma RemoveWithAncestorOk(s: Interop, el: string)
    requires Valid(s)
    ensures Follows(s, RemoveWithAncestor(s, el), None)
  {
    SameShape(s, RemoveWithAncestor(s, el));
  }

  lemma DisconnectOk(s: Interop, el: string)
    requires Valid(s)
    ensures Follows(s, Disconnect(s, el), None)
  {
  }

  lemma AnchorReparentedOk(s: Interop, el: string)
    requires Valid(s)
    ensures Follows(s, AnchorReparented(s, el), None)
  {
    if el in s.doc.anchors {
      var s1 := Disconnect(s, el);
      DisconnectOk(s, el);
      if StripAnchor(el).Some? {
        var id := StripAnchor(el).value;
        DisposeOk(s1, id);
        FollowsTrans(s, s1, Dispose(s1, id), None);
      }
    }
  }
}

=== FILE: keys.dfy ===
/**
  The string keys under which the interop object files its per-tooltip state.
  Element ids are `anchor-{id}` and `tooltip-{id}`; the shared timeout map uses
  `show-{id}` and `hide-{id}`.
 */
module Keys {

  import opened Wrappers

  const AnchorPrefix: string := "anchor-"
  const TooltipPrefix: string := "tooltip-"
  const ShowPrefix: string := "show-"
  const HidePrefix: string := "hide-"

  function AnchorId(id: string): string { AnchorPrefix + id }
  function TooltipId(id: string): string { TooltipPrefix + id }
  function ShowKey(id: string): string { ShowPrefix + id }
  function HideKey(id: string): string { HidePrefix + id }

  /** Prepending a fixed prefix never merges two different suffixes. */
  lemma {:induction false} PrefixCancels(p: string, a: string, b: string)
    requires p + a == p + b
    ensures a == b
  {
    calc {
      a;
      (p + a)[|p|..];
      (p + b)[|p|..];
      b;
    }
  }

  /** Each key derivation is injective, so no two tooltip ids ever share a slot. */
  lemma KeysInjective(a: string, b: string)
    ensures AnchorId(a) == AnchorId(b) <==> a == b
    ensures TooltipId(a) == TooltipId(b) <==> a == b
    ensures ShowKey(a) == ShowKey(b) <==> a == b
    ensures HideKey(a) == HideKey(b) <==> a == b
  {
    if AnchorId(a) == AnchorId(b) { PrefixCancels(AnchorPrefix, a, b); }
    if TooltipId(a) == TooltipId(b) { PrefixCancels(TooltipPrefix, a, b); }
    if ShowKey(a) == ShowKey(b) { PrefixCancels(ShowPrefix, a, b); }
    if HideKey(a) == HideKey(b) { PrefixCancels(HidePrefix, a, b); }
  }

  /** A show slot and a hide slot never coincide, whatever the two ids. */
  lemma ShowHideDisjoint(a: string, b: string)
    ensures ShowKey(a) != HideKey(b)
  {
    assert ShowKey(a)[0] == 's' && HideKey(b)[0] == 'h';
  }

  /** Recovers the tooltip id from an anchor element id (the inverse of `AnchorId`). */
  function StripAnchor(elementId: string): (r: Option<string>)
    ensures r.Some? <==> exists id :: elementId == AnchorId(id)
    ensures r.Some? ==> AnchorId(r.value) == elementId
  {
    if |elementId| >= |AnchorPrefix| && elementId[..|AnchorPrefix|] == AnchorPrefix then
      assert elementId == AnchorId(elementId[|AnchorPrefix|..]);
      Some(elementId[|AnchorPrefix|..])
    else
      assert forall id :: AnchorId(id)[..|AnchorPrefix|] == AnchorPrefix;
      None
  }

  /** Stripping the prefix after adding it gives the id back. */
  lemma StripAnchorRoundTrip(id: string)
    ensures StripAnchor(AnchorId(id)) == Some(id)
  {
    var r := StripAnchor(AnchorId(id));
    KeysInjective(r.value, id);
  }
}

=== FILE: lifecycle.dfy ===
/**
  The public entry points of the interop object: `create`, `dispose`, `show`,
  `hide`, `toggle`, and the mutation observer `create` installs on the anchor.
 */
module Lifecycle {

  import opened Wrappers
  import opened TooltipOptions
  import opened Dom
  import opened Keys
  import opened Placement
  import opened Registry
  import opened Protocol

  /**
    How `create` ended: registered; rejected because the anchor is missing; warned
    because the tooltip is; disabled; or rejected because the theme class is no
    valid class token.
   */
  datatype CreateOutcome = Registered | AnchorMissing | TooltipMissing | Disabled | ThemeRejected

  /** Whether `show`/`hide`/`toggle` reached a handler or only logged a warning. */
  datatype CallOutcome = Dispatched | Warned

  const TooltipClass: string := "floating-tooltip"
  const FadeClass: string := "fade"
  const InteractiveClass: string := "interactive"

  function ThemeClass(theme: string): string { TooltipClass + "--theme-" + theme }

  /** The theme, if set, names a class `classList.add` accepts. */
  predicate ThemeAccepted(opts: Options) {
    opts.theme.None? || opts.theme.value == [] || IsClassToken(ThemeClass(opts.theme.value))
  }

  /** The theme class is accepted exactly when the theme itself contains no ASCII whitespace. */
  lemma ThemeAcceptedIff(opts: Options)
    ensures ThemeAccepted(opts) <==> opts.theme.None? || WhitespaceFree(opts.theme.value)
  {
    if opts.theme.Some? {
      var t := opts.theme.value;
      BaseClassWhitespaceFree();
      ThemeWordWhitespaceFree();
      WhitespaceFreeConcat("floating-tooltip", "--theme-");
      WhitespaceFreeConcat("floating-tooltip" + "--theme-", t);
    }
  }

  lemma BaseClassWhitespaceFree()
    ensures WhitespaceFree("floating-tooltip")
  {
    FloatingWordWhitespaceFree();
    DashTooltipWhitespaceFree();
    assert "floating-tooltip" == "floating" + "-tooltip";
    WhitespaceFreeConcat("floating", "-tooltip");
  }

  lemma FloatingWordWhitespaceFree() ensures WhitespaceFree("floating") {}
  lemma DashTooltipWhitespaceFree() ensures WhitespaceFree("-tooltip") {}
  lemma ThemeWordWhitespaceFree() ensures WhitespaceFree("--theme-") {}

  /** The classes `create` adds to an enabled tooltip. */
  function CreateClasses(opts: Options): (c: set<string>)
    ensures TooltipClass in c
    ensures FadeClass in c <==> opts.animate
    ensures InteractiveClass in c <==> opts.interactive
    ensures forall t :: ThemeClass(t) in c <==> opts.theme == Some(t) && t != []
    ensures c <= {TooltipClass, FadeClass, InteractiveClass} + (if opts.theme.Some? then {ThemeClass(opts.theme.value)} else {})
  {
    assert forall t :: ThemeClass(t) != TooltipClass && ThemeClass(t) != FadeClass && ThemeClass(t) != InteractiveClass by {
      forall t ensures ThemeClass(t) != TooltipClass && ThemeClass(t) != FadeClass && ThemeClass(t) != InteractiveClass {
        assert |ThemeClass(t)| >= 24;
      }
    }
    assert forall t, u :: ThemeClass(t) == ThemeClass(u) ==> t == u by {
      forall t, u | ThemeClass(t) == ThemeClass(u) ensures t == u {
        PrefixCancels(TooltipClass + "--theme-", t, u);
      }
    }
    {TooltipClass}
    + (if opts.theme.Some? && opts.theme.value != [] then {ThemeClass(opts.theme.value)} else {})
    + (if opts.animate then {FadeClass} else {})
    + (if opts.interactive then {InteractiveClass} else {})
  }

  /**
    An anchor with neither a `[data-tooltip-anchor]` descendant nor any child
    element becomes the reference itself, styled `inline-block`.
   */
  function MarkInline(doc: Document, anchor: string): (r: Document)
    requires anchor in doc.anchors
    ensures r.tooltips == doc.tooltips && r.anchors.Keys == doc.anchors.Keys
    ensures r.anchors[anchor].inlineBlock == (doc.anchors[anchor].inlineBlock || !doc.anchors[anchor].hasReference)
    ensures r.anchors[anchor].hasReference == doc.anchors[anchor].hasReference
    ensures forall a :: a in doc.anchors && a != anchor ==> r.anchors[a] == doc.anchors[a]
  {
    var el := doc.anchors[anchor];
    if el.hasReference then doc else doc.(anchors := doc.anchors[anchor := el.(inlineBlock := true)])
  }

  /** The tooltip of an enabled `create`: its classes, `data-placement` and arrow child. */
  function Decorate(tip: Tooltip, opts: Options): (r: Tooltip)
    ensures r.classes == tip.classes + CreateClasses(opts)
    ensures r.placement == Some(ResolvePlacement(opts.placement))
    ensures r.hasArrow == (opts.showArrow || tip.hasArrow)
    ensures r.displayNone == tip.displayNone && r.arrowSide == tip.arrowSide
  {
    tip.(classes := tip.classes + CreateClasses(opts), placement := Some(ResolvePlacement(opts.placement)),
         hasArrow := opts.showArrow || tip.hasArrow)
  }

  /**
    The registering tail of `create`: the closure over the resolved options, its
    cleanup under `anchor-{id}`, its handlers under `id`, and the mutation
    observer on the anchor.
   */
  function Register(s: Interop, id: string, opts: Options): (r: Interop)
    requires TooltipId(id) in s.doc.tooltips
    ensures
      var k := |s.insts|;
      && r.handlers == s.handlers[id := k]
      && r.cleanups == s.cleanups[AnchorId(id) := k]
      && |r.insts| == k + 1 && r.insts[..k] == s.insts
      && r.insts[k] == Instance(id, opts.(placement := Some(ResolvePlacement(opts.placement))),
                                opts.showArrow || s.doc.tooltips[TooltipId(id)].hasArrow, None, !opts.manualTrigger)
      && r.observers == s.observers[s.next := AnchorId(id)]
      && r.doc == PutTooltip(s.doc, TooltipId(id), Decorate(s.doc.tooltips[TooltipId(id)], opts))
      && r == s.(doc := r.doc, insts := r.insts, cleanups := r.cleanups, handlers := r.handlers,
                 observers := r.observers, next := s.next + 1)
  {
    var tt := TooltipId(id);
    var tip' := Decorate(s.doc.tooltips[tt], opts);
    var k := |s.insts|;
    var r := s.(doc := PutTooltip(s.doc, tt, tip'),
                insts := s.insts + [Instance(id, opts.(placement := Some(ResolvePlacement(opts.placement))),
                                             tip'.hasArrow, None, !opts.manualTrigger)],
                cleanups := s.cleanups[AnchorId(id) := k],
                handlers := s.handlers[id := k],
                observers := s.observers[s.next := AnchorId(id)],
                next := s.next + 1);
    assert r.insts[..k] == s.insts;
    r
  }

  /**
    `create(id, options)`. A missing anchor makes the script throw before it
    touches any state; a missing tooltip or `enabled == false` returns early; a
    theme that is no class token makes `classList.add` throw right after the base
    class was added; only an enabled tooltip with both elements and an acceptable
    theme registers a closure, its cleanup, its handlers and a mutation observer
    on the anchor.
   */
  function Create(s: Interop, id: string, opts: Options): (r: (Interop, CreateOutcome))
    ensures r.1 == AnchorMissing <==> AnchorId(id) !in s.doc.anchors
    ensures r.1 == TooltipMissing <==> AnchorId(id) in s.doc.anchors && TooltipId(id) !in s.doc.tooltips
    ensures r.1 == Disabled <==>
      AnchorId(id) in s.doc.anchors && TooltipId(id) in s.doc.tooltips && !opts.enabled
    ensures r.1 == ThemeRejected <==>
      AnchorId(id) in s.doc.anchors && TooltipId(id) in s.doc.tooltips && opts.enabled && !ThemeAccepted(opts)
    ensures r.1 == AnchorMissing ==> r.0 == s
    ensures r.1 != Registered ==> r.0 == s.(doc := r.0.doc) && r.0.doc.tooltips.Keys == s.doc.tooltips.Keys
    ensures r.1 == TooltipMissing ==> r.0.doc == MarkInline(s.doc, AnchorId(id))
    ensures r.1 == Disabled ==> r.0.doc.tooltips[TooltipId(id)].displayNone
    ensures r.1 == Disabled ==>
      var d := MarkInline(s.doc, AnchorId(id));
      r.0.doc == PutTooltip(d, TooltipId(id), d.tooltips[TooltipId(id)].(displayNone := true))
    ensures r.1 == ThemeRejected ==> r.0.doc == AddClass(MarkInline(s.doc, AnchorId(id)), TooltipId(id), TooltipClass)
    ensures r.1 == Registered ==> r.0 == Register(s.(doc := MarkInline(s.doc, AnchorId(id))), id, opts)
  {
    var a := AnchorId(id);
    var tt := TooltipId(id);
    if a !in s.doc.anchors then (s, AnchorMissing)
    else
      var doc1 := MarkInline(s.doc, a);
      if tt !in doc1.tooltips then (s.(doc := doc1), TooltipMissing)
      else if !opts.enabled then (s.(doc := PutTooltip(doc1, tt, doc1.tooltips[tt].(displayNone := true))), Disabled)
      else if !ThemeAccepted(opts) then (s.(doc := AddClass(doc1, tt, TooltipClass)), ThemeRejected)
      else (Register(s.(doc := doc1), id, opts), Registered)
  }

  /** The two `timeouts` keys of tooltip `id`. */
  function TimerKeys(id: string): set<string> { {ShowKey(id), HideKey(id)} }

  /**
    The cleanup's `removeEventListener` calls for closure `k`. A manually
    triggered closure never attached any, so it was not listening to begin with.
   */
  function Unlisten(s: Interop, k: nat): (r: Interop)
    requires k < |s.insts|
    ensures r == s.(insts := r.insts) && |r.insts| == |s.insts|
    ensures !r.insts[k].listening
    ensures r.insts[k] == s.insts[k].(listening := false)
    ensures forall j :: 0 <= j < |s.insts| && j != k ==> r.insts[j] == s.insts[j]
  {
    var inst := s.insts[k];
    s.(insts := s.insts[k := inst.(listening := false)])
  }

  /**
    The cleanup closure `create` stores under the anchor id: detach the reference
    listeners (not for manual triggering), clear the show and hide timeouts of the
    closure's id, and release its autoUpdate, nulling it.
   */
  function RunCleanup(s: Interop, k: nat): (r: Interop)
    requires k < |s.insts|
    ensures r.timers == s.timers - StoredUnder(s.timeouts, TimerKeys(s.insts[k].id))
    ensures |r.insts| == |s.insts| && r.insts[k].cleanup.None?
    ensures !r.insts[k].listening
    ensures r.insts[k] == s.insts[k].(cleanup := None, listening := false)
    ensures forall j :: 0 <= j < |s.insts| && j != k ==> r.insts[j] == s.insts[j]
    ensures r.subs == Unsubscribe(s.subs, s.insts[k].cleanup)
    ensures r.released == LogRelease(s.released, s.insts[k].cleanup)
    ensures r.doc == s.doc && r.observers == s.observers && r.watchers == s.watchers
    ensures r.timeouts == s.timeouts && r.cleanups == s.cleanups && r.handlers == s.handlers
    ensures r.next == s.next
  {
    Release(Unlisten(Cancel(s, TimerKeys(s.insts[k].id)), k), k)
  }

  /** `cleanups.get(anchor)?.()`: runs the stored cleanup closure, if there is one. */
  function RunStoredCleanup(s: Interop, anchor: string): (r: Interop)
    ensures r.timeouts == s.timeouts && r.cleanups == s.cleanups && r.handlers == s.handlers
    ensures r.doc == s.doc && r.observers == s.observers
    ensures anchor in s.cleanups && s.cleanups[anchor] < |s.insts| ==> r == RunCleanup(s, s.cleanups[anchor])
    ensures !(anchor in s.cleanups && s.cleanups[anchor] < |s.insts|) ==> r == s
  {
    if anchor in s.cleanups && s.cleanups[anchor] < |s.insts| then RunCleanup(s, s.cleanups[anchor]) else s
  }

  /** The `delete` calls of `dispose(id)`: its cleanup, its two timeouts, and its handlers. */
  function Unregister(s: Interop, id: string): (r: Interop)
    ensures r.cleanups == s.cleanups - {AnchorId(id)}
    ensures r.timeouts == s.timeouts - TimerKeys(id)
    ensures r.handlers == s.handlers - {id}
    ensures r == s.(cleanups := r.cleanups, timeouts := r.timeouts, handlers := r.handlers)
  {
    s.(cleanups := s.cleanups - {AnchorId(id)}, timeouts := s.timeouts - TimerKeys(id),
       handlers := s.handlers - {id})
  }

  /**
    `dispose(id)`: runs and removes the cleanup stored under `anchor-{id}`, clears
    and deletes the `show-{id}` and `hide-{id}` timeouts, and deletes the handlers.
   */
  function Dispose(s: Interop, id: string): (r: Interop)
    ensures r.cleanups == s.cleanups - {AnchorId(id)}
    ensures r.timeouts == s.timeouts - TimerKeys(id)
    ensures r.handlers == s.handlers - {id}
    ensures r.doc == s.doc && r.observers == s.observers && r.watchers == s.watchers
    ensures forall h :: h in StoredUnder(s.timeouts, TimerKeys(id)) ==> h !in r.timers
    ensures r == RunStoredCleanup(s, AnchorId(id)).(timers := r.timers, cleanups := r.cleanups,
                                                     timeouts := r.timeouts, handlers := r.handlers)
  {
    Unregister(Cancel(RunStoredCleanup(s, AnchorId(id)), TimerKeys(id)), id)
  }

  /**
    In a well-formed state `dispose(id)` cancels exactly the timers stored under
    `show-{id}` and `hide-{id}`, and of all closures only the one registered for
    `id` is touched: its autoUpdate, if any, stops running and is logged as released.
   */
  lemma DisposeExact(s: Interop, id: string)
    requires Valid(s)
    ensures var r := Dispose(s, id);
      && r.timers == s.timers - StoredUnder(s.timeouts, TimerKeys(id))
      && |r.insts| == |s.insts|
      && (AnchorId(id) in s.cleanups ==>
            var k := s.cleanups[AnchorId(id)];
            && (forall j :: 0 <= j < |s.insts| && j != k ==> r.insts[j] == s.insts[j])
            && r.subs == Unsubscribe(s.subs, s.insts[k].cleanup)
            && r.released == LogRelease(s.released, s.insts[k].cleanup))
      && (AnchorId(id) !in s.cleanups ==> r.insts == s.insts && r.subs == s.subs && r.released == s.released)
  {
    var r := Dispose(s, id);
    var gone := StoredUnder(s.timeouts, TimerKeys(id));
    if AnchorId(id) in s.cleanups {
      var k := s.cleanups[AnchorId(id)];
      KeysInjective(s.insts[k].id, id);
      assert s.insts[k].id == id;
      var s1 := RunStoredCleanup(s, AnchorId(id));
      assert s1.timers == s.timers - gone;
      assert r.timers == s1.timers - gone;
    }
  }

  /** `this[`__handlers_${id}`]` is set (and names an existing closure). */
  predicate HasHandlers(s: Interop, id: string) {
    id in s.handlers && s.handlers[id] < |s.insts|
  }

  /** `show(id)`: dispatch to the registered `showTooltip`, or only warn. */
  function Show(s: Interop, id: string): (r: (Interop, CallOutcome))
    ensures r.1 == Warned <==> !HasHandlers(s, id)
    ensures r.1 == Warned ==> r.0 == s
    ensures r.1 == Dispatched ==> r.0 == ShowTooltip(s, s.handlers[id])
  {
    if HasHandlers(s, id) then (ShowTooltip(s, s.handlers[id]), Dispatched) else (s, Warned)
  }

  /** `hide(id)`: dispatch to the registered `hideTooltip`, or only warn. */
  function Hide(s: Interop, id: string): (r: (Interop, CallOutcome))
    ensures r.1 == Warned <==> !HasHandlers(s, id)
    ensures r.1 == Warned ==> r.0 == s
    ensures r.1 == Dispatched ==> r.0 == HideTooltip(s, s.handlers[id])
  {
    if HasHandlers(s, id) then (HideTooltip(s, s.handlers[id]), Dispatched) else (s, Warned)
  }

  /** `toggle(id)`: warn without a tooltip element; otherwise hide when `visible`, show when not. */
  function Toggle(s: Interop, id: string): (r: (Interop, CallOutcome))
    ensures TooltipId(id) !in s.doc.tooltips ==> r == (s, Warned)
    ensures TooltipId(id) in s.doc.tooltips && HasClass(s.doc, TooltipId(id), Visible) ==> r == Hide(s, id)
    ensures TooltipId(id) in s.doc.tooltips && !HasClass(s.doc, TooltipId(id), Visible) ==> r == Show(s, id)
  {
    var tt := TooltipId(id);
    if tt !in s.doc.tooltips then (s, Warned)
    else if HasClass(s.doc, tt, Visible) then Hide(s, id)
    else Show(s, id)
  }

  /** A second `dispose` of the same id finds nothing left to tear down. */
  lemma DisposeIdempotent(s: Interop, id: string)
    ensures Dispose(Dispose(s, id), id) == Dispose(s, id)
  {
    var d := Dispose(s, id);
    assert StoredUnder(d.timeouts, TimerKeys(id)) == {};
  }

  /** `dispose(id)` invoked `n` times in a row: the same as invoking it once. */
  function DisposeRepeat(s: Interop, id: string, n: nat): (r: Interop)
    ensures n == 0 ==> r == s
    ensures n > 0 ==> r == Dispose(s, id)
    ensures r.doc == s.doc
    decreases n
  {
    if n == 0 then s
    else
      DisposeIdempotent(s, id);
      DisposeRepeat(Dispose(s, id), id, n - 1)
  }

  /** The observers connected to element `el`. */
  function Watching(s: Interop, el: string): set<nat> {
    set o | o in s.observers && s.observers[o] == el
  }

  /** The document after element `el` is removed, with the observers that watched it disconnected. */
  function Detach(s: Interop, el: string): (r: Interop)
    ensures el !in r.doc.anchors && Watching(r, el) == {}
    ensures r.doc.tooltips == s.doc.tooltips
  {
    s.(doc := s.doc.(anchors := s.doc.anchors - {el}),
       observers := map o | o in s.observers && s.observers[o] != el :: s.observers[o])
  }

  /**
    The anchor element `el` leaves the page. Each observer `create` attached to
    it calls `dispose` with the element id it was given, which is already the
    prefixed `anchor-{id}`, and disconnects.
   */
  function AnchorRemoved(s: Interop, el: string): (r: Interop)
    ensures el !in s.doc.anchors ==> r == s
    ensures el in s.doc.anchors ==> el !in r.doc.anchors && Watching(r, el) == {}
    ensures el in s.doc.anchors && Watching(s, el) == {} ==> r == Detach(s, el)
    ensures el in s.doc.anchors && Watching(s, el) != {} ==> r == Dispose(Detach(s, el), el)
  {
    if el !in s.doc.anchors then s
    else
      var n := |Watching(s, el)|;
      DisposeRepeat(Detach(s, el), el, n)
  }

  /**
    The observer as evidently intended: the removed element `anchor-{id}` tears
    down tooltip `id`, i.e. each observer calls `dispose(id)`.
   */
  function AnchorRemovedIntended(s: Interop, el: string): (r: Interop)
    ensures el !in s.doc.anchors ==> r == s
    ensures el in s.doc.anchors ==> el !in r.doc.anchors && Watching(r, el) == {}
    ensures r.doc.tooltips == s.doc.tooltips
  {
    if el !in s.doc.anchors then s
    else
      match StripAnchor(el)
      case None => Detach(s, el)
      case Some(id) => DisposeRepeat(Detach(s, el), id, |Watching(s, el)|)
  }

  /** Removing the anchor of a tooltip some observer watches unregisters that tooltip entirely. */
  lemma AnchorRemovedIntendedTearsDown(s: Interop, id: string)
    requires AnchorId(id) in s.doc.anchors && Watching(s, AnchorId(id)) != {}
    ensures var r := AnchorRemovedIntended(s, AnchorId(id));
      && AnchorId(id) !in r.cleanups && id !in r.handlers
      && ShowKey(id) !in r.timeouts && HideKey(id) !in r.timeouts
  {
    StripAnchorRoundTrip(id);
  }

  /**
    Element `el` leaves the page. A removed tooltip element is simply gone (no
    observer watches it); a removed anchor is handled by the corrected observer.
   */
  function RemoveElement(s: Interop, el: string): (r: Interop)
    ensures el !in r.doc.tooltips && el !in r.doc.anchors
    ensures forall e :: e in s.doc.tooltips && e != el ==> e in r.doc.tooltips && r.doc.tooltips[e] == s.doc.tooltips[e]
    ensures el !in s.doc.anchors ==> r == s.(doc := s.doc.(tooltips := s.doc.tooltips - {el}))
    ensures el in s.doc.anchors ==> r == AnchorRemovedIntended(s.(doc := s.doc.(tooltips := s.doc.tooltips - {el})), el)
  {
    AnchorRemovedIntended(s.(doc := s.doc.(tooltips := s.doc.tooltips - {el})), el)
  }

  /**
    Element `el` leaves the page together with an ancestor. The observers
    watch only the child list of the anchor's own parent, so none of them is
    notified: the element is gone and nothing else changes.
   */
  function RemoveWithAncestor(s: Interop, el: string): (r: Interop)
    ensures el !in r.doc.tooltips && el !in r.doc.anchors
    ensures forall e :: e in s.doc.tooltips && e != el ==> e in r.doc.tooltips && r.doc.tooltips[e] == s.doc.tooltips[e]
    ensures forall e :: e in s.doc.anchors && e != el ==> e in r.doc.anchors && r.doc.anchors[e] == s.doc.anchors[e]
    ensures r == s.(doc := r.doc)
  {
    s.(doc := s.doc.(anchors := s.doc.anchors - {el}, tooltips := s.doc.tooltips - {el}))
  }

  /** The observers watching `el` disconnected; every other observer stays. */
  function Disconnect(s: Interop, el: string): (r: Interop)
    ensures Watching(r, el) == {}
    ensures forall o :: o in s.observers && s.observers[o] != el ==> o in r.observers && r.observers[o] == s.observers[o]
    ensures r == s.(observers := r.observers)
  {
    s.(observers := map o | o in s.observers && s.observers[o] != el :: s.observers[o])
  }

  /**
    Anchor `el` is moved to another parent. Its old parent's child list loses it,
    so each observer on it runs the corrected callback, although the anchor
    stays on the page.
   */
  function AnchorReparented(s: Interop, el: string): (r: Interop)
    ensures el !in s.doc.anchors ==> r == s
    ensures el in s.doc.anchors ==> Watching(r, el) == {} && r.doc == s.doc
    ensures el in s.doc.anchors && Watching(s, el) != {} && StripAnchor(el).Some? ==>
      r == Dispose(Disconnect(s, el), StripAnchor(el).value)
  {
    if el !in s.doc.anchors then s
    else
      match StripAnchor(el)
      case None => Disconnect(s, el)
      case Some(id) => DisposeRepeat(Disconnect(s, el), id, |Watching(s, el)|)
  }
}

=== FILE: options.dfy ===
/**
  The options object that `create` receives as JSON. The field set and defaults
  are those of the host-side options class; `placement` and `theme` are read by
  the script but never sent by the host, so from the host they are always absent.
 */
module TooltipOptions {

  import opened Wrappers

  datatype Options = Options(
    animate: bool,
    showDelay: int,
    hideDelay: int,
    showArrow: bool,
    interactive: bool,
    enabled: bool,
    maxWidth: Option<int>,
    manualTrigger: bool,
    useCdn: bool,
    placement: Option<string>,
    theme: Option<string>)

  /** The options a default-constructed host options object serializes to. */
  function Defaults(): (o: Options)
    ensures o.enabled && !o.interactive && !o.manualTrigger
    ensures o.showDelay == 0 && o.hideDelay == 0
  {
    Options(animate := true, showDelay := 0, hideDelay := 0, showArrow := true,
            interactive := false, enabled := true, maxWidth := None,
            manualTrigger := false, useCdn := true, placement := None, theme := None)
  }

  /**
    The delay a timer is armed with: `delay || 0`, and the timer facility treats a
    negative delay as zero.
   */
  function EffectiveDelay(d: int): (r: nat)
    ensures d > 0 ==> r == d
    ensures d <= 0 ==> r == 0
  {
    if d > 0 then d else 0
  }

  /** The fixed hover re-check delay used by interactive tooltips. */
  const RecheckDelay: nat := 100
}

=== FILE: placement.dfy ===
/**
  Placement strings: the default applied at creation, the split of a resolved
  placement into base side and alignment, the `tooltip-align-*` classes that the
  split drives, and the arrow's static side.
 */
module Placement {

  import opened Wrappers

  const DefaultPlacement: string := "top"

  /** `options.placement ||= "top"`: an absent or empty placement becomes "top". */
  function ResolvePlacement(p: Option<string>): (r: string)
    ensures r != []
    ensures p.Some? && p.value != [] ==> r == p.value
    ensures p.None? || p.value == [] ==> r == DefaultPlacement
  {
    if p.Some? && p.value != [] then p.value else DefaultPlacement
  }

  /** Resolving an already resolved placement changes nothing. */
  lemma ResolveIdempotent(p: Option<string>)
    ensures ResolvePlacement(Some(ResolvePlacement(p))) == ResolvePlacement(p)
  {
  }

  /** The text of `s` before its first '-' (all of `s` when there is none). */
  function Head(s: string): (r: string)
    ensures '-' !in r
    ensures |r| <= |s| && r == s[..|r|]
    ensures |r| < |s| ==> s[|r|] == '-'
  {
    if s == [] || s[0] == '-' then [] else [s[0]] + Head(s[1..])
  }

  /**
    `const [base, alignment = "center"] = resolved.split("-")`: the first piece and
    the second piece, the second being "center" only when there is no '-' at all.
   */
  function SplitPlacement(resolved: string): (r: (string, string))
    ensures '-' !in r.0 && '-' !in r.1
    ensures '-' !in resolved <==> r == (resolved, "center")
    ensures '-' in resolved ==>
      && |r.0| + 1 + |r.1| <= |resolved|
      && resolved[..|r.0| + 1 + |r.1|] == r.0 + "-" + r.1
      && (|r.0| + 1 + |r.1| < |resolved| ==> resolved[|r.0| + 1 + |r.1|] == '-')
  {
    var base := Head(resolved);
    if |base| == |resolved| then
      assert resolved == base;
      (base, "center")
    else
      var rest := resolved[|base| + 1..];
      var align := Head(rest);
      assert resolved[..|base| + 1 + |align|] == base + "-" + align by {
        assert resolved == base + "-" + rest;
        assert rest[..|align|] == align;
      }
      assert '-' in resolved by { assert resolved[|base|] == '-'; }
      (base, align)
  }

  lemma {:induction false} HeadOfJoined(a: string, rest: string)
    requires '-' !in a
    ensures Head(a + "-" + rest) == a
  {
    if a == [] {
      assert (a + "-" + rest)[0] == '-';
    } else {
      assert (a + "-" + rest)[1..] == a[1..] + "-" + rest;
      HeadOfJoined(a[1..], rest);
    }
  }

  /** The compass side a placement starts with. */
  datatype Side = Top | Right | Bottom | Left

  /** The optional alignment suffix of a placement. */
  datatype Alignment = Start | End

  /** The twelve placements the positioning library resolves to. */
  datatype FloatingPlacement = FloatingPlacement(side: Side, align: Option<Alignment>)

  function SideName(s: Side): string {
    match s
    case Top => "top"
    case Right => "right"
    case Bottom => "bottom"
    case Left => "left"
  }

  function AlignmentName(a: Alignment): string {
    match a
    case Start => "start"
    case End => "end"
  }

  /** The string form of a placement: `side` or `side-alignment`. */
  function Format(p: FloatingPlacement): string {
    SideName(p.side) + (if p.align.Some? then "-" + AlignmentName(p.align.value) else "")
  }

  /** Splitting a formatted placement recovers its side and its alignment, "center" when unaligned. */
  lemma SplitFormat(p: FloatingPlacement)
    ensures SplitPlacement(Format(p)).0 == SideName(p.side)
    ensures SplitPlacement(Format(p)).1 ==
      (if p.align.Some? then AlignmentName(p.align.value) else "center")
  {
    var b := SideName(p.side);
    assert '-' !in b;
    if p.align.Some? {
      var a := AlignmentName(p.align.value);
      assert '-' !in a;
      assert Format(p) == b + "-" + a;
      HeadOfJoined(b, a);
      var r := SplitPlacement(Format(p));
      assert r.0 == b;
      assert Format(p)[|b| + 1..] == a;
      assert Head(a) == a by { assert '-' !in a; HeadOfWhole(a); }
    } else {
      assert Format(p) == b;
    }
  }

  lemma {:induction false} HeadOfWhole(s: string)
    requires '-' !in s
    ensures Head(s) == s
  {
    if s != [] {
      HeadOfWhole(s[1..]);
    }
  }

  const AlignStart: string := "tooltip-align-start"
  const AlignEnd: string := "tooltip-align-end"
  const AlignCenter: string := "tooltip-align-center"
  const AlignClasses: set<string> := {AlignStart, AlignEnd, AlignCenter}

  function AlignClass(alignment: string): string { "tooltip-align-" + alignment }

  /**
    The class update of each reposition: drop the three alignment classes, then add
    the one named after the resolved placement's alignment.
   */
  function ApplyAlignment(classes: set<string>, resolved: string): (r: set<string>)
    ensures AlignClass(SplitPlacement(resolved).1) in r
    ensures forall c :: c in r && c in AlignClasses ==> c == AlignClass(SplitPlacement(resolved).1)
    ensures forall c :: c != AlignClass(SplitPlacement(resolved).1) && c !in AlignClasses ==>
      (c in r <==> c in classes)
  {
    classes - AlignClasses + {AlignClass(SplitPlacement(resolved).1)}
  }

  /** For every placement the library can resolve to, exactly one of the three alignment classes remains. */
  lemma ExactlyOneAlignClass(classes: set<string>, p: FloatingPlacement)
    ensures ApplyAlignment(classes, Format(p)) * AlignClasses ==
      {AlignClass(if p.align.Some? then AlignmentName(p.align.value) else "center")}
  {
    SplitFormat(p);
    var c := AlignClass(if p.align.Some? then AlignmentName(p.align.value) else "center");
    assert c in AlignClasses by {
      if p.align == Some(Start) { assert c == AlignStart; }
      else if p.align == Some(End) { assert c == AlignEnd; }
      else { assert c == AlignCenter; }
    }
  }

  const Sides: set<string> := {"top", "right", "bottom", "left"}

  /** The lookup table for the arrow's static side; any other base finds no entry. */
  function StaticSide(base: string): (r: Option<string>)
    ensures r.Some? <==> base in Sides
    ensures r.Some? ==> r.value in Sides && r.value != base
  {
    if base == "top" then Some("bottom")
    else if base == "right" then Some("left")
    else if base == "bottom" then Some("top")
    else if base == "left" then Some("right")
    else None
  }

  /** The vertical pair of sides; the other two are horizontal. */
  predicate Vertical(side: string) { side == "top" || side == "bottom" }

  /** The static side is the opposite side: on the same axis, and mapping it back gives the base. */
  lemma StaticSideOpposite(s: Side)
    ensures StaticSide(SideName(s)).Some?
    ensures StaticSide(StaticSide(SideName(s)).value) == Some(SideName(s))
    ensures Vertical(StaticSide(SideName(s)).value) <==> Vertical(SideName(s))
  {
  }
}

=== FILE: properties.dfy ===
/**
  What the script does over short sequences of calls and events: which timer a
  call cancels, which timers no call can reach any more, what the interactive
  hover bridge leaves behind, and what `dispose` and the anchor observer tear down.
 */
module Properties {

  import opened Wrappers
  import opened TooltipOptions
  import opened Dom
  import opened Keys
  import opened Placement
  import opened Registry
  import opened Protocol
  import opened Lifecycle
  import opened Invariants
  import opened Events

  /** A registered, enabled tooltip: `show(id)` and `hide(id)` reach its closure. */
  ghost predicate Live(s: Interop, id: string) {
    Valid(s) && HasHandlers(s, id) && s.insts[s.handlers[id]].opts.enabled
  }

  /**
    `create` with the host's default options, on a page holding both elements:
    the tooltip gets the base and fade classes and no other, placement "top" and
    an arrow, and the new closure listens on its reference with no delays.
   */
  lemma DefaultCreate(s: Interop, id: string)
    requires AnchorId(id) in s.doc.anchors && TooltipId(id) in s.doc.tooltips
    ensures var r := Create(s, id, Defaults());
      && r.1 == Registered
      && TooltipId(id) in r.0.doc.tooltips
      && r.0.doc.tooltips[TooltipId(id)].classes == s.doc.tooltips[TooltipId(id)].classes + {TooltipClass, FadeClass}
      && r.0.doc.tooltips[TooltipId(id)].placement == Some(DefaultPlacement)
      && r.0.doc.tooltips[TooltipId(id)].hasArrow
      && |r.0.insts| == |s.insts| + 1
      && r.0.insts[|s.insts|].listening && !r.0.insts[|s.insts|].opts.interactive
      && EffectiveDelay(r.0.insts[|s.insts|].opts.showDelay) == 0
      && EffectiveDelay(r.0.insts[|s.insts|].opts.hideDelay) == 0
  {
    assert CreateClasses(Defaults()) == {TooltipClass, FadeClass};
  }

  /** `create` with `enabled == false` registers nothing, so later calls for that id only warn. */
  lemma DisabledCreateRegistersNothing(s: Interop, id: string, opts: Options)
    requires AnchorId(id) in s.doc.anchors && TooltipId(id) in s.doc.tooltips && !opts.enabled
    requires !HasHandlers(s, id)
    ensures var r := Create(s, id, opts);
      && r.1 == Disabled
      && r.0.handlers == s.handlers && r.0.cleanups == s.cleanups && r.0.timers == s.timers
      && Show(r.0, id).1 == Warned && Hide(r.0, id).1 == Warned
  {
  }

  /** `show(id)` clears the pending hide stored under `hide-{id}` and stores its own timer under `show-{id}`. */
  lemma ShowCancelsHide(s: Interop, id: string)
    requires Live(s, id)
    ensures var r := Show(s, id).0;
      && (HideKey(id) in s.timeouts ==> s.timeouts[HideKey(id)] !in r.timers)
      && r.timeouts[ShowKey(id)] == s.next
      && s.next in r.timers && r.timers[s.next].task == ShowTask(s.handlers[id])
  {
    if HideKey(id) in s.timeouts {
      assert s.timeouts[HideKey(id)] < s.next;
    }
  }

  /** `hide(id)` clears the pending show stored under `show-{id}` and stores its own timer under `hide-{id}`. */
  lemma HideCancelsShow(s: Interop, id: string)
    requires Valid(s) && HasHandlers(s, id)
    ensures var r := Hide(s, id).0;
      && (ShowKey(id) in s.timeouts ==> s.timeouts[ShowKey(id)] !in r.timers)
      && r.timeouts[HideKey(id)] == s.next
      && s.next in r.timers && r.timers[s.next].task == HideTask(s.handlers[id])
  {
    if ShowKey(id) in s.timeouts {
      assert s.timeouts[ShowKey(id)] < s.next;
    }
  }

  /**
    `hide(id)` before the show delay has elapsed: the show timer never fires,
    whatever happens afterwards; its expiry finds nothing to run.
   */
  lemma HideBeforeShowDelay(s: Interop, id: string, es: seq<Event>, hovered: bool)
    requires Live(s, id)
    ensures var after := Run(Hide(Show(s, id).0, id).0, es);
      && s.next !in after.timers
      && FireTimer(after, s.next, hovered) == after
  {
    var s1 := Show(s, id).0;
    ShowOk(s, id);
    var s2 := Hide(s1, id).0;
    HideOk(s1, id);
    NoResurrection(s2, es, s.next);
  }

  /**
    A second `show(id)` while the first is pending overwrites `show-{id}`
    without clearing it: the first show timer is still pending, and no slot
    holds it any more.
   */
  lemma DoubleShowOrphansFirst(s: Interop, id: string)
    requires Live(s, id)
    ensures var r := Show(Show(s, id).0, id).0;
      Orphaned(r, s.next) && r.timers[s.next].task == ShowTask(s.handlers[id])
  {
    var s1 := Show(s, id).0;
    var r := Show(s1, id).0;
    assert s1.handlers == s.handlers && s1.insts == s.insts;
    ShowHideDisjoint(id, id);
    if HideKey(id) in s1.timeouts {
      assert HideKey(id) in s.timeouts && s1.timeouts[HideKey(id)] == s.timeouts[HideKey(id)];
    }
    forall key | key in r.timeouts ensures r.timeouts[key] != s.next {
      if key != ShowKey(id) {
        assert r.timeouts[key] == s.timeouts[key] < s.next;
      }
    }
  }

  /**
    The orphaned show timer outlives `hide(id)` and `dispose(id)`: the tooltip
    is unregistered, yet its first show timer is still pending, with its task.
   */
  lemma OrphanedShowOutlivesDispose(s: Interop, id: string)
    requires Live(s, id)
    ensures var twice := Show(Show(s, id).0, id).0;
      var gone := Dispose(Hide(twice, id).0, id);
      && Valid(gone)
      && Orphaned(gone, s.next) && gone.timers[s.next].task == ShowTask(s.handlers[id])
      && AnchorId(id) !in gone.cleanups && !HasHandlers(gone, id)
  {
    var s1 := Show(s, id).0;
    ShowOk(s, id);
    var twice := Show(s1, id).0;
    ShowOk(s1, id);
    DoubleShowOrphansFirst(s, id);
    FollowsTrans(s, s1, twice, None);
    HideDisposeKeepsOrphan(twice, id, s.next);
  }

  lemma HideDisposeKeepsOrphan(t: Interop, id: string, h: nat)
    requires Valid(t) && Orphaned(t, h)
    ensures var gone := Dispose(Hide(t, id).0, id);
      && Valid(gone) && Orphaned(gone, h) && gone.timers[h] == t.timers[h]
      && AnchorId(id) !in gone.cleanups && !HasHandlers(gone, id)
  {
    var hidden := Hide(t, id).0;
    HideOk(t, id);
    OrphanKept(t, hidden, None, h);
    DisposeOk(hidden, id);
    OrphanKept(hidden, Dispose(hidden, id), None, h);
  }

  /**
    When a show timer nobody holds expires, the tooltip becomes visible and an
    autoUpdate starts for its closure, whether or not the id is still registered.
   */
  lemma OrphanedShowFires(s: Interop, h: nat, k: nat, hovered: bool)
    requires Valid(s) && Orphaned(s, h) && s.timers[h].task == ShowTask(k)
    ensures var fired := FireTimer(s, h, hovered);
      && (TooltipId(s.insts[k].id) in s.doc.tooltips ==> HasClass(fired.doc, TooltipId(s.insts[k].id), Visible))
      && s.next in fired.subs && fired.subs[s.next] == k
      && fired.cleanups == s.cleanups && fired.handlers == s.handlers
  {
  }

  /**
    An autoUpdate overwritten by a second show expiry keeps running, and no
    closure's `cleanup` names it any more: nothing can ever release it.
   */
  lemma SecondShowLeaksSubscription(s: Interop, k: nat)
    requires Valid(s) && k < |s.insts| && s.insts[k].cleanup.Some?
    ensures var r := FireShow(s, k);
      var t := s.insts[k].cleanup.value;
      && t in r.subs
      && forall j :: 0 <= j < |r.insts| ==> r.insts[j].cleanup != Some(t)
  {
    var t := s.insts[k].cleanup.value;
    assert t in s.subs && s.subs[t] == k;
    forall j | 0 <= j < |s.insts| && j != k ensures s.insts[j].cleanup != Some(t) {
      assert s.insts[j].cleanup.Some? ==> s.subs[s.insts[j].cleanup.value] == j;
    }
  }

  /**
    The interactive hover bridge: leaving the reference for the hovered
    tooltip, then leaving the tooltip back into the anchor, arms no hide. The
    pending timers, the `timeouts` slots and the page end as they began; only
    the uncancelable re-check timer's handle has been used up.
   */
  lemma InteractiveBridge(s: Interop, k: nat)
    requires Valid(s) && k < |s.insts| && s.insts[k].listening && s.insts[k].opts.interactive
    ensures var left := OnLeave(s, k);
      var recheck := FireTimer(left, s.next, true);
      var back := LeaveFromTooltip(recheck, left.next, true);
      && left.timeouts == s.timeouts && left.timers[s.next].task == RecheckTask(k)
      && recheck.watchers[left.next] == k
      && back.timers == s.timers && back.timeouts == s.timeouts && back.doc == s.doc
      && back.watchers == s.watchers
  {
    var left := OnLeave(s, k);
    assert left.timers - {s.next} == s.timers;
    var recheck := FireTimer(left, s.next, true);
    assert s.next + 1 !in s.watchers;
    assert recheck.watchers - {left.next} == s.watchers;
  }

  /** Leaving the hovered tooltip for anywhere outside the anchor arms the hide. */
  lemma BridgeExitHides(s: Interop, k: nat)
    requires Valid(s) && k < |s.insts| && s.insts[k].listening && s.insts[k].opts.interactive
    ensures var left := OnLeave(s, k);
      var recheck := FireTimer(left, s.next, true);
      var out := LeaveFromTooltip(recheck, left.next, false);
      && out.timeouts[HideKey(s.insts[k].id)] == recheck.next
      && out.timers[recheck.next].task == HideTask(k)
  {
    var left := OnLeave(s, k);
    var recheck := FireTimer(left, s.next, true);
    assert recheck.watchers[left.next] == k && recheck.insts == s.insts;
  }

  /** `dispose` of an id the object never registered changes nothing. */
  lemma DisposeUnknown(s: Interop, id: string)
    requires AnchorId(id) !in s.cleanups && id !in s.handlers
    requires ShowKey(id) !in s.timeouts && HideKey(id) !in s.timeouts
    ensures Dispose(s, id) == s
  {
    assert StoredUnder(s.timeouts, TimerKeys(id)) == {};
    assert s.timeouts - TimerKeys(id) == s.timeouts;
    assert s.cleanups - {AnchorId(id)} == s.cleanups;
    assert s.handlers - {id} == s.handlers;
  }

  /** `dispose(id)` leaves every other id's cleanup, slots and handlers where they were. */
  lemma DisposeFrame(s: Interop, id: string, other: string)
    requires other != id
    ensures var r := Dispose(s, id);
      && (AnchorId(other) in s.cleanups ==>
            (AnchorId(other) in r.cleanups && r.cleanups[AnchorId(other)] == s.cleanups[AnchorId(other)]))
      && (ShowKey(other) in s.timeouts ==>
            (ShowKey(other) in r.timeouts && r.timeouts[ShowKey(other)] == s.timeouts[ShowKey(other)]))
      && (HideKey(other) in s.timeouts ==>
            (HideKey(other) in r.timeouts && r.timeouts[HideKey(other)] == s.timeouts[HideKey(other)]))
      && (other in s.handlers ==> (other in r.handlers && r.handlers[other] == s.handlers[other]))
  {
    KeysInjective(id, other);
    ShowHideDisjoint(other, id);
    ShowHideDisjoint(id, other);
  }

  /**
    After `dispose(id)` of a registered tooltip: `show`/`hide` only warn, both
    stored timers are cleared, and the closure has released its autoUpdate and
    detached its reference listeners (a manual trigger had none).
   */
  lemma DisposeTearsDown(s: Interop, id: string)
    requires Valid(s) && AnchorId(id) in s.cleanups
    ensures var r := Dispose(s, id);
      var k := s.cleanups[AnchorId(id)];
      && Show(r, id).1 == Warned && Hide(r, id).1 == Warned
      && (ShowKey(id) in s.timeouts ==> s.timeouts[ShowKey(id)] !in r.timers)
      && (HideKey(id) in s.timeouts ==> s.timeouts[HideKey(id)] !in r.timers)
      && r.insts[k].cleanup.None? && !r.insts[k].listening
      && (s.insts[k].cleanup.Some? ==>
            var t := s.insts[k].cleanup.value;
            t !in r.subs && r.released == s.released + [t])
  {
    var k := s.cleanups[AnchorId(id)];
    var s1 := RunStoredCleanup(s, AnchorId(id));
    assert s1 == RunCleanup(s, k);
    RunCleanupOk(s, k);
  }

  /**
    Once a tooltip element has left the page, `toggle` for its id finds no
    element and only warns, whatever is still registered for it.
   */
  lemma RemovedTooltipToggleWarns(s: Interop, id: string)
    ensures var r := RemoveElement(s, TooltipId(id));
      && Toggle(r, id) == (r, Warned)
      && (TooltipId(id) !in s.doc.anchors ==> r.handlers == s.handlers && r.cleanups == s.cleanups)
  {
  }

  /**
    An anchor that leaves the page together with an ancestor notifies no
    observer: even with the corrected callback its tooltip stays registered.
   */
  lemma AncestorRemovalKeepsRegistration(s: Interop, id: string)
    ensures var r := RemoveWithAncestor(s, AnchorId(id));
      && AnchorId(id) !in r.doc.anchors
      && r.cleanups == s.cleanups && r.handlers == s.handlers && r.timeouts == s.timeouts
      && Watching(r, AnchorId(id)) == Watching(s, AnchorId(id))
  {
  }

  /**
    An anchor moved to another parent fires its observers: the tooltip is torn
    down although its anchor is still on the page.
   */
  lemma MovedAnchorUnregisters(s: Interop, id: string)
    requires AnchorId(id) in s.doc.anchors && Watching(s, AnchorId(id)) != {}
    ensures var r := AnchorReparented(s, AnchorId(id));
      && AnchorId(id) in r.doc.anchors
      && AnchorId(id) !in r.cleanups && id !in r.handlers
      && ShowKey(id) !in r.timeouts && HideKey(id) !in r.timeouts
  {
    StripAnchorRoundTrip(id);
  }

  /**
    A theme with a space in it makes `classList.add` throw: the tooltip keeps
    only the base class it had just been given, and nothing is registered.
   */
  lemma SpacedThemeRegistersNothing(s: Interop, id: string, opts: Options)
    requires AnchorId(id) in s.doc.anchors && TooltipId(id) in s.doc.tooltips && opts.enabled
    requires opts.theme == Some("dark mode")
    ensures var r := Create(s, id, opts);
      && r.1 == ThemeRejected
      && r.0.cleanups == s.cleanups && r.0.handlers == s.handlers && r.0.observers == s.observers
      && r.0.timers == s.timers && r.0.insts == s.insts
      && HasClass(r.0.doc, TooltipId(id), TooltipClass)
      && Show(r.0, id).1 == Show(s, id).1
  {
    ThemeAcceptedIff(opts);
    assert !WhitespaceFree("dark mode");
  }

  /**
    `create` again for a live id registers a second closure over the same
    elements without running the first one's cleanup: after `dispose(id)` the
    first closure's reference listeners are still attached.
   */
  lemma RecreateKeepsFirstListeners(s: Interop, id: string, o1: Options, o2: Options)
    requires Valid(s) && AnchorId(id) in s.doc.anchors && TooltipId(id) in s.doc.tooltips
    requires o1.enabled && o2.enabled && !o1.manualTrigger && ThemeAccepted(o1) && ThemeAccepted(o2)
    ensures var c1 := Create(s, id, o1).0;
      var c2 := Create(c1, id, o2).0;
      var k := |s.insts|;
      && c2.handlers[id] == k + 1 && c2.cleanups[AnchorId(id)] == k + 1
      && Dispose(c2, id).insts[k].listening
  {
    var c1 := Create(s, id, o1).0;
    CreateOk(s, id, o1);
    var c2 := Create(c1, id, o2).0;
    var k := |s.insts|;
    assert c1.insts[k].listening;
    assert c2.insts[k] == c2.insts[..k + 1][k] == c1.insts[k];
  }

  /**
    As written, the observer passes the element id `anchor-{id}` to `dispose`,
    which prefixes it again and looks up `anchor-anchor-{id}`: removing the
    anchor of a registered tooltip leaves its cleanup and handlers in place.
   */
  lemma AnchorRemovedKeepsRegistration(s: Interop, id: string)
    requires AnchorId(id) in s.doc.anchors && AnchorId(id) in s.cleanups && id in s.handlers
    ensures var r := AnchorRemoved(s, AnchorId(id));
      && AnchorId(id) in r.cleanups && r.cleanups[AnchorId(id)] == s.cleanups[AnchorId(id)]
      && id in r.handlers && r.handlers[id] == s.handlers[id]
  {
    var el := AnchorId(id);
    assert |AnchorId(el)| > |el| > |id|;
  }

  /** The corrected observer unregisters the tooltip whose anchor went away. */
  lemma AnchorRemovedIntendedUnregisters(s: Interop, id: string)
    requires Valid(s) && AnchorId(id) in s.doc.anchors && Watching(s, AnchorId(id)) != {}
    ensures var r := AnchorRemovedIntended(s, AnchorId(id));
      && Follows(s, r, None)
      && AnchorId(id) !in r.cleanups && !HasHandlers(r, id)
      && Show(r, id).1 == Warned && Hide(r, id).1 == Warned
  {
    AnchorRemovedIntendedOk(s, AnchorId(id));
    AnchorRemovedIntendedTearsDown(s, id);
  }

  /** A page with the anchor and tooltip elements of id "x", before any call. */
  function WitnessPage(): Document {
    Document(map[AnchorId("x") := Anchor(true, false)],
             map[TooltipId("x") := Tooltip({}, false, None, false, None)])
  }

  /** `create("x")` with the default options on that page registers closure 0 and its observer. */
  lemma WitnessCreated()
    ensures var s := Create(Initial(WitnessPage()), "x", Defaults()).0;
      && Valid(s) && AnchorId("x") in s.doc.anchors
      && s.handlers == map["x" := 0] && s.cleanups == map[AnchorId("x") := 0]
      && Watching(s, AnchorId("x")) == {0}
  {
    CreateOk(Initial(WitnessPage()), "x", Defaults());
  }

  /** The two observers part ways on that page: as written, the removal leaves "x" registered. */
  lemma AnchorRemovedWitness()
    ensures var s := Create(Initial(WitnessPage()), "x", Defaults()).0;
      && HasHandlers(s, "x")
      && HasHandlers(AnchorRemoved(s, AnchorId("x")), "x")
      && !HasHandlers(AnchorRemovedIntended(s, AnchorId("x")), "x")
  {
    var s := Create(Initial(WitnessPage()), "x", Defaults()).0;
    WitnessCreated();
    AnchorRemovedKeepsRegistration(s, "x");
    AnchorRemovedIntendedUnregisters(s, "x");
  }
}

=== FILE: protocol.dfy ===
/**
  The closures `create` builds for one tooltip: the cancelable show/hide timer
  protocol, what an expiring timer does, the listeners on the reference element,
  the interactive hover bridge, and the autoUpdate reposition callback.
 */
module Protocol {

  import opened Wrappers
  import opened TooltipOptions
  import opened Dom
  import opened Keys
  import opened Placement
  import opened Registry

  /** The handles currently stored under the given `timeouts` keys. */
  function StoredUnder(timeouts: map<string, nat>, keys: set<string>): (hs: set<nat>)
    ensures forall key :: key in keys && key in timeouts ==> timeouts[key] in hs
    ensures forall h :: h in hs ==> h in timeouts.Values
    ensures forall h :: h in hs ==> exists key :: key in keys && key in timeouts && timeouts[key] == h
  {
    set key | key in keys && key in timeouts :: timeouts[key]
  }

  /** `clearTimeout(timeouts.get(key))` for each key: cancels the handles stored there, nothing else. */
  function Cancel(s: Interop, keys: set<string>): (r: Interop)
    ensures r == s.(timers := r.timers)
    ensures forall h :: h in r.timers <==> h in s.timers && h !in StoredUnder(s.timeouts, keys)
    ensures forall h :: h in r.timers ==> r.timers[h] == s.timers[h]
  {
    s.(timers := s.timers - StoredUnder(s.timeouts, keys))
  }

  /** `setTimeout(task, delay)`: arms a timer under the fresh handle `s.next`. */
  function Schedule(s: Interop, task: Task, delay: nat): (r: Interop)
    ensures r == s.(timers := r.timers, next := s.next + 1)
    ensures s.next in r.timers && r.timers[s.next] == Timer(task, delay)
    ensures forall h :: h != s.next ==> (h in r.timers <==> h in s.timers)
    ensures forall h :: h in s.timers && h != s.next ==> r.timers[h] == s.timers[h]
  {
    s.(timers := s.timers[s.next := Timer(task, delay)], next := s.next + 1)
  }

  /**
    The shape of `showTooltip` and `hideTooltip`: clear the handle stored under
    `cancelKey`, arm a fresh timer running `task`, and store it under `storeKey`,
    overwriting without clearing whatever that slot held.
   */
  ghost predicate Armed(s: Interop, r: Interop, cancelKey: string, storeKey: string, task: Task) {
    && r == s.(timers := r.timers, timeouts := r.timeouts, next := s.next + 1)
    && r.timeouts == s.timeouts[storeKey := s.next]
    && s.next in r.timers && r.timers[s.next].task == task
    && (forall h :: h != s.next ==> (h in r.timers <==> h in s.timers && Stored(s, cancelKey) != Some(h)))
    && (forall h :: h in r.timers && h != s.next ==> r.timers[h] == s.timers[h])
  }

  /** The common body of `showTooltip` and `hideTooltip`. */
  function Arm(s: Interop, cancelKey: string, storeKey: string, task: Task, delay: nat): (r: Interop)
    ensures Armed(s, r, cancelKey, storeKey, task)
    ensures r.timers[s.next].delay == delay
  {
    var s1 := Cancel(s, {cancelKey});
    s1.(timers := s1.timers[s.next := Timer(task, delay)],
        timeouts := s.timeouts[storeKey := s.next], next := s.next + 1)
  }

  /** `showTooltip` of closure `k`: does nothing unless enabled; otherwise cancels the stored hide. */
  function ShowTooltip(s: Interop, k: nat): (r: Interop)
    requires k < |s.insts|
    ensures !s.insts[k].opts.enabled ==> r == s
    ensures s.insts[k].opts.enabled ==>
      && Armed(s, r, HideKey(s.insts[k].id), ShowKey(s.insts[k].id), ShowTask(k))
      && r.timers[s.next].delay == EffectiveDelay(s.insts[k].opts.showDelay)
  {
    var inst := s.insts[k];
    if !inst.opts.enabled then s
    else Arm(s, HideKey(inst.id), ShowKey(inst.id), ShowTask(k), EffectiveDelay(inst.opts.showDelay))
  }

  /** `hideTooltip` of closure `k` (it has no `enabled` guard): cancels the stored show. */
  function HideTooltip(s: Interop, k: nat): (r: Interop)
    requires k < |s.insts|
    ensures Armed(s, r, ShowKey(s.insts[k].id), HideKey(s.insts[k].id), HideTask(k))
    ensures r.timers[s.next].delay == EffectiveDelay(s.insts[k].opts.hideDelay)
  {
    var inst := s.insts[k];
    Arm(s, ShowKey(inst.id), HideKey(inst.id), HideTask(k), EffectiveDelay(inst.opts.hideDelay))
  }

  /** The running subscriptions once `token` (if any) is released. */
  function Unsubscribe(subs: map<nat, nat>, token: Option<nat>): (r: map<nat, nat>)
    ensures token.Some? ==> r == subs - {token.value}
    ensures token.None? ==> r == subs
  {
    if token.Some? then subs - {token.value} else subs
  }

  /** The release log once `token` (if any) is released. */
  function LogRelease(log: seq<nat>, token: Option<nat>): (r: seq<nat>)
    ensures token.Some? ==> r == log + [token.value]
    ensures token.None? ==> r == log
  {
    if token.Some? then log + [token.value] else log
  }

  /**
    `if (cleanup) { cleanup(); cleanup = null; }` for closure `k`: the token leaves
    the running set and is appended to the release log.
   */
  function Release(s: Interop, k: nat): (r: Interop)
    requires k < |s.insts|
    ensures |r.insts| == |s.insts| && r.insts[k].cleanup.None?
    ensures r.insts[k] == s.insts[k].(cleanup := None)
    ensures forall j :: 0 <= j < |s.insts| && j != k ==> r.insts[j] == s.insts[j]
    ensures r.subs == Unsubscribe(s.subs, s.insts[k].cleanup)
    ensures r.released == LogRelease(s.released, s.insts[k].cleanup)
    ensures r == s.(subs := r.subs, released := r.released, insts := r.insts)
  {
    var c := s.insts[k].cleanup;
    s.(subs := Unsubscribe(s.subs, c), released := LogRelease(s.released, c),
       insts := s.insts[k := s.insts[k].(cleanup := None)])
  }

  /** Releasing a closure that holds no autoUpdate changes nothing. */
  lemma ReleaseNothing(s: Interop, k: nat)
    requires k < |s.insts| && s.insts[k].cleanup.None?
    ensures Release(s, k) == s
  {
    assert Release(s, k).insts == s.insts;
  }

  /** A show timer of closure `k` expires: the tooltip gets `visible` and a new autoUpdate starts. */
  function FireShow(s: Interop, k: nat): (r: Interop)
    requires k < |s.insts|
    ensures TooltipId(s.insts[k].id) in s.doc.tooltips ==> HasClass(r.doc, TooltipId(s.insts[k].id), Visible)
    ensures r.doc.tooltips.Keys == s.doc.tooltips.Keys && r.doc.anchors == s.doc.anchors
    ensures forall e :: e in s.doc.tooltips && e != TooltipId(s.insts[k].id) ==> r.doc.tooltips[e] == s.doc.tooltips[e]
    ensures r.doc == AddClass(s.doc, TooltipId(s.insts[k].id), Visible)
    ensures r.insts == s.insts[k := s.insts[k].(cleanup := Some(s.next))]
    ensures r.subs == s.subs[s.next := k]
    ensures r == s.(doc := r.doc, subs := r.subs, insts := r.insts, next := s.next + 1)
  {
    var inst := s.insts[k];
    s.(doc := AddClass(s.doc, TooltipId(inst.id), Visible),
       subs := s.subs[s.next := k],
       insts := s.insts[k := inst.(cleanup := Some(s.next))],
       next := s.next + 1)
  }

  /** A hide timer of closure `k` expires: `visible` goes and the closure's cleanup runs, then is nulled. */
  function FireHide(s: Interop, k: nat): (r: Interop)
    requires k < |s.insts|
    ensures !HasClass(r.doc, TooltipId(s.insts[k].id), Visible)
    ensures r.doc.tooltips.Keys == s.doc.tooltips.Keys && r.doc.anchors == s.doc.anchors
    ensures forall e :: e in s.doc.tooltips && e != TooltipId(s.insts[k].id) ==> r.doc.tooltips[e] == s.doc.tooltips[e]
    ensures r.doc == RemoveClass(s.doc, TooltipId(s.insts[k].id), Visible)
    ensures |r.insts| == |s.insts| && r.insts[k].cleanup.None?
    ensures r == Release(s.(doc := r.doc), k)
  {
    Release(s.(doc := RemoveClass(s.doc, TooltipId(s.insts[k].id), Visible)), k)
  }

  /**
    The 100 ms re-check of an interactive tooltip: if the tooltip is hovered, wait
    for a once-only mouseleave on it; otherwise hide.
   */
  function Recheck(s: Interop, k: nat, hovered: bool): (r: Interop)
    requires k < |s.insts|
    ensures hovered ==> r == s.(watchers := s.watchers[s.next := k], next := s.next + 1)
    ensures !hovered ==> r == HideTooltip(s, k)
  {
    if hovered then s.(watchers := s.watchers[s.next := k], next := s.next + 1)
    else HideTooltip(s, k)
  }

  /** Runs the callback of an expired timer on the state where that timer is no longer pending. */
  function RunTask(s: Interop, task: Task, hovered: bool): Interop {
    if task.inst >= |s.insts| then s
    else
      match task
      case ShowTask(k) => FireShow(s, k)
      case HideTask(k) => FireHide(s, k)
      case RecheckTask(k) => Recheck(s, k, hovered)
  }

  /** Timer `h` expires. A handle that was cleared or has already run does nothing. */
  function FireTimer(s: Interop, h: nat, hovered: bool): (r: Interop)
    ensures h !in s.timers ==> r == s
    ensures h in s.timers ==> r == RunTask(s.(timers := s.timers - {h}), s.timers[h].task, hovered)
  {
    if h !in s.timers then s
    else RunTask(s.(timers := s.timers - {h}), s.timers[h].task, hovered)
  }

  /** `mouseenter` on closure `k`'s reference element: `showTooltip`, while the listener is attached. */
  function OnEnter(s: Interop, k: nat): (r: Interop)
    requires k < |s.insts|
    ensures !s.insts[k].listening ==> r == s
    ensures s.insts[k].listening ==> r == ShowTooltip(s, k)
  {
    if s.insts[k].listening then ShowTooltip(s, k) else s
  }

  /**
    `mouseleave` on closure `k`'s reference element: an interactive tooltip arms
    an uncancelable 100 ms re-check instead of hiding; any other tooltip hides.
   */
  function OnLeave(s: Interop, k: nat): (r: Interop)
    requires k < |s.insts|
    ensures !s.insts[k].listening ==> r == s
    ensures s.insts[k].listening && s.insts[k].opts.interactive ==>
      r == Schedule(s, RecheckTask(k), RecheckDelay)
    ensures s.insts[k].listening && !s.insts[k].opts.interactive ==> r == HideTooltip(s, k)
  {
    if !s.insts[k].listening then s
    else if s.insts[k].opts.interactive then Schedule(s, RecheckTask(k), RecheckDelay)
    else HideTooltip(s, k)
  }

  /**
    The once-only `mouseleave` listener `w` on a hovered interactive tooltip fires:
    it is removed, and it hides unless the pointer went back into the anchor.
   */
  function LeaveFromTooltip(s: Interop, w: nat, relatedInAnchor: bool): (r: Interop)
    ensures w !in s.watchers ==> r == s
    ensures w in s.watchers && relatedInAnchor ==> r == s.(watchers := s.watchers - {w})
    ensures w in s.watchers && !relatedInAnchor && s.watchers[w] < |s.insts| ==>
      r == HideTooltip(s.(watchers := s.watchers - {w}), s.watchers[w])
  {
    if w !in s.watchers then s
    else
      var s1 := s.(watchers := s.watchers - {w});
      if relatedInAnchor || s.watchers[w] >= |s.insts| then s1
      else HideTooltip(s1, s.watchers[w])
  }

  /**
    One run of a live autoUpdate's callback, given the placement the library
    resolved and whether it reported arrow data: it resets the alignment class and,
    when the tooltip has an arrow, pins the arrow to the static side. An alignment
    class that is no class token makes `classList.add` throw after the three
    alignment classes were removed; the callback catches it and pins nothing.
   */
  function Reposition(s: Interop, t: nat, resolved: string, arrowData: bool): (r: Interop)
    ensures r == s.(doc := r.doc)
    ensures r.doc.anchors == s.doc.anchors && r.doc.tooltips.Keys == s.doc.tooltips.Keys
    ensures t in s.subs && s.subs[t] < |s.insts| ==>
      var el := TooltipId(s.insts[s.subs[t]].id);
      var accepted := IsClassToken(AlignClass(SplitPlacement(resolved).1));
      && (forall e :: e in s.doc.tooltips && e != el ==> r.doc.tooltips[e] == s.doc.tooltips[e])
      && (el in s.doc.tooltips ==>
            && (accepted ==> r.doc.tooltips[el].classes == ApplyAlignment(s.doc.tooltips[el].classes, resolved))
            && (!accepted ==> r.doc.tooltips[el].classes == s.doc.tooltips[el].classes - AlignClasses)
            && (accepted && s.insts[s.subs[t]].arrow && arrowData ==>
                  r.doc.tooltips[el].arrowSide == StaticSide(SplitPlacement(resolved).0))
            && (!(accepted && s.insts[s.subs[t]].arrow && arrowData) ==>
                  r.doc.tooltips[el].arrowSide == s.doc.tooltips[el].arrowSide)
            && r.doc.tooltips[el] == s.doc.tooltips[el].(classes := r.doc.tooltips[el].classes,
                                                         arrowSide := r.doc.tooltips[el].arrowSide))
    ensures !(t in s.subs && s.subs[t] < |s.insts|) ==> r == s
  {
    if t !in s.subs || s.subs[t] >= |s.insts| then s
    else
      var inst := s.insts[s.subs[t]];
      var el := TooltipId(inst.id);
      if el !in s.doc.tooltips then s
      else
        var tip := s.doc.tooltips[el];
        var tip' := if !IsClassToken(AlignClass(SplitPlacement(resolved).1)) then tip.(classes := tip.classes - AlignClasses)
                    else tip.(classes := ApplyAlignment(tip.classes, resolved),
                              arrowSide := if inst.arrow && arrowData then StaticSide(SplitPlacement(resolved).0)
                                           else tip.arrowSide);
        s.(doc := PutTooltip(s.doc, el, tip'))
  }

  /** Every placement the library resolves to yields an alignment class `classList.add` accepts. */
  lemma LibraryAlignmentAccepted(p: FloatingPlacement)
    ensures IsClassToken(AlignClass(SplitPlacement(Format(p)).1))
  {
    SplitFormat(p);
    var a := SplitPlacement(Format(p)).1;
    AlignPrefixWhitespaceFree();
    match p.align
    case Some(Start) => StartWhitespaceFree(); WhitespaceFreeConcat("tooltip-align-", a);
    case Some(End) => EndWhitespaceFree(); WhitespaceFreeConcat("tooltip-align-", a);
    case None => CenterWhitespaceFree(); WhitespaceFreeConcat("tooltip-align-", a);
  }

  lemma AlignPrefixWhitespaceFree()
    ensures WhitespaceFree("tooltip-align-")
  {
    TooltipWordWhitespaceFree();
    AlignWordWhitespaceFree();
    assert "tooltip-align-" == "tooltip" + "-align-";
    WhitespaceFreeConcat("tooltip", "-align-");
  }

  lemma TooltipWordWhitespaceFree() ensures WhitespaceFree("tooltip") {}
  lemma AlignWordWhitespaceFree() ensures WhitespaceFree("-align-") {}
  lemma StartWhitespaceFree() ensures WhitespaceFree("start") {}
  lemma EndWhitespaceFree() ensures WhitespaceFree("end") {}
  lemma CenterWhitespaceFree() ensures WhitespaceFree("center") {}
}

=== FILE: registry.dfy ===
/**
  The interop object's whole state. The three registries of the script are kept
  under their real string keys: `cleanups` under `anchor-{id}`, `timeouts` under
  `show-{id}` / `hide-{id}`, and the per-id handler pair under the id itself.
  Each successful `create` builds a closure; `insts` holds those closures, and the
  registries refer to them by index. Timer handles, autoUpdate tokens, once-only
  tooltip listeners and mutation observers are all drawn from one fresh counter.
 */
module Registry {

  import opened Wrappers
  import opened TooltipOptions
  import opened Dom
  import opened Keys

  /** What a pending timer runs when it expires; `inst` is the closure that armed it. */
  datatype Task =
    | ShowTask(inst: nat)     // show delay elapsed: make visible, start autoUpdate
    | HideTask(inst: nat)     // hide delay elapsed: make invisible, stop autoUpdate
    | RecheckTask(inst: nat)  // 100 ms hover re-check of an interactive tooltip

  datatype Timer = Timer(task: Task, delay: nat)

  /**
    One `create` closure: its id and resolved options, whether its tooltip has an
    arrow child, the closure variable `cleanup` (the live autoUpdate token, if any),
    and whether its mouseenter/mouseleave listeners are still attached.
   */
  datatype Instance = Instance(
    id: string,
    opts: Options,
    arrow: bool,
    cleanup: Option<nat>,
    listening: bool)

  datatype Interop = Interop(
    cleanups: map<string, nat>,   // anchor element id -> closure whose cleanup is stored
    timeouts: map<string, nat>,   // show-/hide- key -> most recently stored timer handle
    handlers: map<string, nat>,   // tooltip id -> closure providing showTooltip/hideTooltip
    insts: seq<Instance>,
    timers: map<nat, Timer>,      // pending timers: armed, not yet expired or cleared
    watchers: map<nat, nat>,      // once-only mouseleave listeners on a tooltip -> closure
    subs: map<nat, nat>,          // running autoUpdate subscriptions -> closure
    released: seq<nat>,           // autoUpdate tokens released so far, in order
    observers: map<nat, string>,  // connected mutation observers -> observed element id
    next: nat,                    // the next fresh handle
    doc: Document)

  /** The object as constructed: empty registries over the given page. */
  function Initial(doc: Document): (s: Interop)
    ensures Valid(s)
    ensures s.doc == doc && s.cleanups == map[] && s.timeouts == map[] && s.handlers == map[]
    ensures s.timers == map[] && s.subs == map[]
  {
    Interop(map[], map[], map[], [], map[], map[], map[], [], map[], 0, doc)
  }

  ghost predicate TimersOk(s: Interop) {
    && (forall h :: h in s.timers ==> h < s.next && s.timers[h].task.inst < |s.insts|)
    && (forall key :: key in s.timeouts ==> s.timeouts[key] < s.next)
  }

  ghost predicate RegistriesOk(s: Interop) {
    && (forall key :: key in s.cleanups ==>
          s.cleanups[key] < |s.insts| && key == AnchorId(s.insts[s.cleanups[key]].id))
    && (forall id :: id in s.handlers ==>
          s.handlers[id] < |s.insts| && s.insts[s.handlers[id]].id == id)
    && (forall w :: w in s.watchers ==> w < s.next && s.watchers[w] < |s.insts|)
    && (forall o :: o in s.observers ==> o < s.next)
  }

  /**
    Every closure's `cleanup` names a running subscription of its own; a released
    token is never running again and appears in the release log once.
   */
  ghost predicate SubscriptionsOk(s: Interop) {
    && (forall t :: t in s.subs ==> t < s.next && s.subs[t] < |s.insts|)
    && (forall k :: 0 <= k < |s.insts| && s.insts[k].cleanup.Some? ==>
          s.insts[k].cleanup.value in s.subs && s.subs[s.insts[k].cleanup.value] == k)
    && (forall i :: 0 <= i < |s.released| ==> s.released[i] < s.next && s.released[i] !in s.subs)
    && (forall i, j :: 0 <= i < j < |s.released| ==> s.released[i] != s.released[j])
  }

  ghost predicate Valid(s: Interop) {
    TimersOk(s) && RegistriesOk(s) && SubscriptionsOk(s)
  }

  /**
    How any operation relates a state to its successor: the counter only grows,
    closures keep their identity, a pending timer keeps its task, a timer handle
    that is not pending now is never pending later, and `timeouts` only ever
    receives handles it already held or fresh ones.
   */
  ghost predicate Grows(s: Interop, r: Interop) {
    && s.next <= r.next
    && |s.insts| <= |r.insts|
    && (forall k :: 0 <= k < |s.insts| ==>
          r.insts[k].id == s.insts[k].id && r.insts[k].opts == s.insts[k].opts
          && r.insts[k].arrow == s.insts[k].arrow)
    && (forall h :: h in r.timers ==> (h in s.timers && r.timers[h] == s.timers[h]) || s.next <= h)
    && (forall key :: key in r.timeouts ==> r.timeouts[key] in s.timeouts.Values || s.next <= r.timeouts[key])
  }

  /** A pending timer disappears only if some `timeouts` slot held it, or it is the one that expired. */
  ghost predicate CancelsOnlyStored(s: Interop, r: Interop, expired: Option<nat>) {
    forall h :: h in s.timers && h !in r.timers ==> h in s.timeouts.Values || expired == Some(h)
  }

  /** `r` is a well-formed successor of the well-formed `s`, where `expired` names the timer that ran, if any. */
  ghost predicate Follows(s: Interop, r: Interop, expired: Option<nat>) {
    Valid(r) && Grows(s, r) && CancelsOnlyStored(s, r, expired)
  }

  /** `timeouts.get(key)`, undefined when the key is absent. */
  function Stored(s: Interop, key: string): Option<nat> {
    if key in s.timeouts then Some(s.timeouts[key]) else None
  }

  /** A pending timer that no `timeouts` slot holds: no clearTimeout in the script can reach it. */
  ghost predicate Orphaned(s: Interop, h: nat) {
    h in s.timers && h !in s.timeouts.Values
  }
}

=== FILE: wrappers.dfy ===
/** The optional-value type used wherever the script reads a value that may be `undefined`. */
module Wrappers {

  datatype Option<+T> = None | Some(value: T)
}
